=== FILE: README.md ===
# Hand-gesture trigger, preprocessing and publishing: a Dafny model

This project models the parts of the hand-gesture application that have sequential logic worth stating:

- **Clap trigger.** The Unity component `HandTrackingAndONNX` (`Assets/dddtext.cs`) treats a palm-to-palm clap as a toggle:
  - `CheckForClap` accepts a clap when the palms are within `clapDistanceThreshold` and more than `clapCooldown` has passed since `lastClapTime`.
  - `Update` skips the check while `isWaitingForDataCollection` is set.
  - The `HandleClapDetection` and `ResetClapAfterDelay` coroutines flip `isPredicting`, start the prediction loop, and reset the busy flag and `lastClapTime`.
  - The loop `ContinuousPrediction` classifies a frame, sends the hand's joint data and waits 0.2 s.
- **Image preprocessing** (`ResizeAndFlipTexture`, `ProcessImageToTensor`):
  - the vertical row flip of a row-major pixel buffer;
  - the channel-last tensor layout with ImageNet mean/std normalisation.
- **Labels and joint data.** `GetGestureName` decodes a class index. `SendHandJointData` builds a dictionary with the fixed keys `timestamp`, `gesture` and `sampleNumber`, plus `<Joint>_X/_Y/_Z` for every available joint except `Invalid`.
- **Publishing.** Messages use the PUB message of the NATS client protocol, `PUB <subject> <#bytes>\r\n<payload>\r\n`, sent as UTF-8 text:
  - `Connection.SendHandData` and `SendWebSocketMessage` (`Assets/webs.cs`);
  - the command-line pose sender `send_nats_message` / `load_map_config` (`websocket/webs_to_ext.py`).
- **Training labels.** `get_image_paths_and_labels` of the training scripts turns a folder listing into file and label lists:
  - `train.py` and `traintransfer1.py` take the first `clap_<n>` key of `label_map` that occurs in the name;
  - `traineffic.py` sorts, lowercases and applies a precedence chain.

Modules, one concept each:

| module | file | what it holds |
|---|---|---|
| `Wrappers` | `wrappers.dfy` | `Option`, `Result` |
| `Text` | `text.dfy` | substring, suffix, ASCII lower-casing and decimal numerals |
| `Utf8` | `utf8.dfy` | UTF-8 encoding of text and `Encoding.UTF8.GetByteCount` |
| `Nats` | `nats.dfy` | the PUB frame, plus a byte-level reader for it |
| `Geometry` | `geometry.dfy` | points, and `Vector3.Distance(a, b) <= t` without a square root |
| `Hands` | `hands.dfy` | XR joint identifiers and tracked-hand state |
| `Connection` | `connection.dfy` | `Assets/webs.cs` |
| `Gestures` | `gestures.dfy` | label table, joint-data map, `SendHandJointData` |
| `Clap` | `clap.dfy` | the clap trigger / toggle state machine and its runs |
| `Pixels` | `pixels.dfy` | row flip and tensor layout |
| `PoseTarget` | `pose_target.dfy` | `websocket/webs_to_ext.py` |
| `ImageLabels` | `labelling.dfy` | `get_image_paths_and_labels` of the three training scripts |

Coroutines become explicit transitions:
- A `Clap.State` records where the clap-handling chain is suspended and when its wait ends (`Phase`).
- `Clap.Run` drives the model with any sequence of frame events and continuation events.
- The spacing lemmas (`Clap.RunSpaced`, `Clap.ClapsSpacedByCooldown`) assume the event times never decrease. `Clap.PredictionFollowsConfirmedClaps` holds for every sequence.

Three behaviours of the program that follow from its code:
- A clap held from 0 s is next accepted after 5 s. Clap checks are skipped until the reset at 3 s, and the reset restarts the cooldown (`Clap.HeldClapScenario`).
- `Connection.SendHandData` always writes the subject `subject.pose` and counts UTF-8 bytes. Publishing the payload `"hi"` (quotes included) for `hand.jointData` yields `PUB subject.pose 4\r\n"hi"\r\n` (`Connection.QuotedHiFrame`).
- The Unity label table says `back` at index 4, where the training scripts' names say `backwards` (`Gestures.TablesDifferOnlyAtBack`).

## Model

| member | source | states |
|---|---|---|
| Clap.CheckForClap | Assets/dddtext.cs:65-80 | Nothing changes unless both hands are tracked and both palm poses are available. A clap is accepted exactly when the palms are within the threshold and the time since `lastClapTime` strictly exceeds the cooldown. On acceptance `lastClapTime` becomes now, the busy flag is set, and handling waits 0.5 s. |
| Clap.Update | Assets/dddtext.cs:57-80 | A frame accepts a clap exactly when there is a hand subsystem, no clap is being handled, both hands are tracked with palm poses within the threshold, and the cooldown has strictly elapsed. A frame that accepts nothing changes nothing. An accepted clap records the frame time as `lastClapTime`, sets the busy flag and waits 0.5 s, keeping `isPredicting` and the sample number. |
| Clap.FirstClapPassesCooldown | Assets/dddtext.cs:22-80 | From the initial state (`lastClapTime` minus infinity, line 22), a check accepts exactly when the hands are tracked and the palms are close, whatever the time. |
| Clap.AtMostOneClapPerFrame | Assets/dddtext.cs:57-85 | A second update with the same hands and time never accepts a second clap. An update that accepts nothing leaves everything as it was. |
| Clap.BeginClapHandling | Assets/dddtext.cs:82-85 | Starting clap handling sets the busy flag and suspends for 0.5 s. Nothing else changes. |
| Clap.ConfirmClap | Assets/dddtext.cs:86-96 | After the 0.5 s wait, `isPredicting` flips. The prediction loop starts exactly on a false-to-true flip, and a loop so started passes its first `while (isPredicting)` test. The chain then waits 1 s, and nothing else changes. |
| Clap.SettleClap | Assets/dddtext.cs:96-102 | After the 1 s wait the chain starts the reset, which waits 1.5 s. The flags are untouched. |
| Clap.ResetClap | Assets/dddtext.cs:100-105 | The reset sets `lastClapTime` to the reset time and clears the busy flag. `isPredicting` and the sample number are kept. |
| Clap.Resume | Assets/dddtext.cs:82-105 | Before its wait is over, or when idle, the chain does nothing. Resuming changes `isPredicting` exactly at the post-0.5 s point. A prediction loop starts exactly when predicting turns on there. The 1 s wait leads to the 1.5 s reset wait. Only the due reset sets `lastClapTime` to now and clears the busy flag; every other step keeps both. The sample number is untouched. |
| Clap.NextClapAfterReset | Assets/dddtext.cs:74-105 | After the reset at time r, a clap is accepted only at a time later than r plus the cooldown. |
| Clap.PredictionIteration | Assets/dddtext.cs:107-137 | If `isPredicting` was cleared while the loop waited for the end of the frame (line 111), the check after inference (line 129) exits the loop, sends nothing and changes nothing. Otherwise `SendHandJointData` runs and the loop waits 0.2 s. The sample number goes up only for a tracked left hand. For a tracked left hand, the dictionary carries the predicted gesture's name, the new sample number and the timestamp. Nothing is sent unless the socket is open. With an open socket, the first frame wraps the serialised dictionary and the second the quoted gesture name. Only the sample number changes. |
| Clap.PredictionFollowsConfirmedClaps | Assets/dddtext.cs:82-111 | Each accepted clap flips `isPredicting` exactly once. After any run from the initial state, predicting is on, and the prediction loop passes its `while (isPredicting)` test, exactly when an odd number of accepted claps have passed their 0.5 s wait. |
| Clap.ClapsSpacedByCooldown | Assets/dddtext.cs:22-105 | In any run from the initial state with non-decreasing times, consecutive accepted claps are more than the chain's 3 s plus the cooldown apart, so never within the cooldown of each other. |
| Clap.HeldClapScenario | Assets/dddtext.cs:26-105 | With threshold 0.1, cooldown 2.0 and palms 0.05 apart, a clap is accepted at 0 s and not at 1 s or 2.1 s. With the chain run to its reset at 3 s, none is accepted at 4 s and the next is accepted at 5.1 s. |
| Geometry.WithinDistanceSymmetric | Assets/dddtext.cs:74 | The palm-distance test does not depend on which hand is first, and a point is within any non-negative threshold of itself. |
| Pixels.FlipRows | Assets/dddtext.cs:193-202 | The row-by-row `Array.Copy` loop produces exactly the buffer whose rows are the input's rows in reverse order. |
| Pixels.CopyRange | Assets/dddtext.cs:199 | `Array.Copy` writes the source range into the destination range and leaves every other destination element alone. |
| Pixels.FlippedPixel | Assets/dddtext.cs:197-200 | Input row y becomes output row `height - 1 - y`, column by column. |
| Pixels.FlippedCharacterised | Assets/dddtext.cs:194-200 | A buffer of the same size that holds input row y at row `height - 1 - y` for every row is the flip, so the flip is fully determined by its row mapping. |
| Pixels.FlippedInvolution | Assets/dddtext.cs:193-202 | Flipping twice gives the buffer back. |
| Pixels.FlippedPermutes | Assets/dddtext.cs:193-202 | The flip keeps the length and is a permutation: the same multiset of pixels. |
| Pixels.FlippedAppend | Assets/dddtext.cs:197-200 | The flip of two stacked blocks of whole rows is the flip of the lower block above the flip of the upper one. |
| Pixels.NormalizeToTensor | Assets/dddtext.cs:162-177 | The tensor has `width*height*3` elements, and element k is channel `k % 3` of pixel `k / 3`, minus that channel's mean (0.485, 0.456, 0.406) and divided by its deviation (0.229, 0.224, 0.225). |
| Pixels.TensorIdxDecodes | Assets/dddtext.cs:168-173 | Position `(y*width+x)*3+c` is inside the tensor and decodes back to pixel `y*width+x` and channel c, so no two (pixel, channel) pairs share an element. |
| Pixels.NormalizedInvertible | Assets/dddtext.cs:171-173 | Normalisation loses nothing: scaling back by the deviation and adding the mean recovers the channel value. |
| Pixels.ProcessImageToTensor | Assets/dddtext.cs:155-202 | For a 224 x 224 resized image, tensor element (y, x, c) is channel c of source pixel (x, 223 - y), normalised. |
| Pixels.UniformImageTensor | Assets/dddtext.cs:155-178 | A uniform image gives a tensor that is constant per channel. |
| Gestures.GetGestureName | Assets/dddtext.cs:243-247 | The result is a gesture name exactly when the index is in 0..7, and then its position in the table is that index, so no two class indices share a name. Any other index gives "Unknown Gesture". |
| Gestures.GestureNameRoundTrip | Assets/dddtext.cs:243-247 | Decoding is injective: a decoded index is recovered from its name, and the sentinel is never one of the gesture names. |
| Gestures.TablesDifferOnlyAtBack | Assets/dddtext.cs:245 | The Unity table and the training label names (train.py:32-35) both have eight entries and agree everywhere except index 4 ("back" against "backwards"). |
| Gestures.JointKeysDistinct | Assets/dddtext.cs:217-234 | Different (joint, axis) pairs give different dictionary keys, and no joint key collides with a fixed key. |
| Gestures.BuildJointData | Assets/dddtext.cs:217-236 | The map holds the three fixed entries. It holds `<Joint>_X/_Y/_Z` exactly for the joints 0..LittleTip other than `Invalid` whose pose is available, with that pose's coordinates, and it holds no other key. |
| Gestures.Int32Increment | Assets/dddtext.cs:214 | `sampleNumber++` on a 32-bit int: the result stays in range and is one more than the input modulo 2^32. |
| Gestures.SendHandJointData | Assets/dddtext.cs:208-241 | With no subsystem or an untracked left hand, nothing happens and the sample number is kept. Otherwise the number goes up by one. The map carries the timestamp, the gesture and the new number, plus exactly the joint keys of `BuildJointData` with each available joint's coordinates. The jointData frame and then the quoted-gesture frame are sent. Two frames go out exactly when the hand is tracked and the socket is open. |
| Gestures.BothFramesSameSubject | Assets/dddtext.cs:239-240 | The `hand.jointData` and `hand.prediction` calls build identical frames for the same payload. The prediction frame reads back with subject `subject.pose`. |
| Connection.SendHandData | Assets/webs.cs:19-34 | At most one frame is sent, and exactly one when the socket exists and is open. The frame reads back as a PUB on `subject.pose` whose payload is exactly the message's UTF-8 bytes. |
| Connection.QuotedHiFrame | Assets/webs.cs:19-28 | Sending the payload `"hi"` with its quotes on `hand.jointData` yields the one frame `PUB subject.pose 4\r\n"hi"\r\n`. |
| Connection.SubjectIgnored | Assets/webs.cs:19-24 | The subject argument has no effect on what is sent. |
| Connection.SendWebSocketMessage | Assets/webs.cs:89-103 | The fixed frame is sent exactly when the socket is open, and it reads back as `Hello` on `subject.pose`. |
| Connection.TestFrameIsHandDataFrame | Assets/webs.cs:91-99 | The length field 5 is the byte count of `Hello`, so the fixed frame is the frame `SendHandData` builds for `Hello`. The logged `test.subject` frame reads back with its own subject. |
| Connection.FramesSpelledOut | Assets/webs.cs:91-99 | Both literal test frames are PUB frames with length field 5 and payload `Hello`, and `test.subject` is a valid subject token. |
| Nats.ParsePubRoundTrip | Assets/webs.cs:23-24 | A frame whose length field is the payload's UTF-8 byte count reads back, from the front of any stream, as its subject, exactly its payload bytes, and the untouched rest, even when the payload contains CR LF. |
| Nats.ParseHeaderRoundTrip | Assets/webs.cs:24 | The protocol line `PUB <subject> <len>` of a valid subject reads back as that subject and length. |
| Nats.PubFrameLengthInjective | Assets/webs.cs:24 | Two frames with the same subject and payload are equal only if their length fields are equal. |
| Text.DecimalRoundTrip | Assets/webs.cs:24 | The decimal numeral written into the length field reads back as the number. |
| Utf8.ByteCount | Assets/webs.cs:24 | `Encoding.UTF8.GetByteCount` is the length of the UTF-8 encoding, between the character count and four times it. |
| Utf8.ByteCountIsLengthIffAscii | Assets/webs.cs:24 | The byte count equals the character count exactly when the text is ASCII. |
| Utf8.EncodeAppend | Assets/webs.cs:24-28 | Encoding the interpolated frame is encoding its pieces one after another. |
| PoseTarget.PoseMessage | websocket/webs_to_ext.py:16-20 | The message fails (an `IndexError`) exactly when a target quaternion with fewer than four entries is given. |
| PoseTarget.PoseMessageFields | websocket/webs_to_ext.py:10-20 | The message's position is (x, y, z). Its orientation is entries 0..3 of the target read as x, y, z, w, or the identity `q0` when no target is given. |
| PoseTarget.NatsFrameMatchesUnity | websocket/webs_to_ext.py:21-26 | Counting characters gives the same frame as the Unity sender's byte count exactly when the message is ASCII. For ASCII messages the frame reads back as the message on `subject.pose`. |
| PoseTarget.SendNatsMessage | websocket/webs_to_ext.py:13-28 | The send fails exactly when the message cannot be built. For ASCII serialiser output, the frame reads back as the serialised message. |
| PoseTarget.LoadMapConfig | websocket/webs_to_ext.py:30-35 | The load succeeds exactly when `position` has at least 3 entries and `quat` at least 4. The values are the first three and first four entries, in order, with extras ignored. A missing `position` is a `KeyError` on that key. A `position` list shorter than 3 is a `ValueError`. Otherwise a missing `quat` is a `KeyError` on `quat`, and a `quat` list shorter than 4 is a `ValueError`. |
| PoseTarget.RunScript | websocket/webs_to_ext.py:30-44 | The script sends a frame exactly when the configuration loads, and otherwise fails with the load's error. The message sent carries the first three `position` entries and the first four `quat` entries. When its serialisation is ASCII, the frame reads back on `subject.pose` as exactly that serialisation. |
| PoseTarget.RunScriptSendsConfiguredPose | websocket/webs_to_ext.py:33-44 | A loaded configuration yields a message carrying its first three position entries and its four quaternion entries. |
| ImageLabels.ImageFiles | train.py:59 | The image files of a listing are, in listing order, exactly the names whose lowercased form ends in `.png`, `.jpg` or `.jpeg`. Each image name appears as often as in the listing. |
| ImageLabels.Collect | train.py:61-71 | The labelling loop returns equal-length lists. The file list is an order-preserving subsequence of the input, each file carries the label its rule gives, and a file is kept exactly when the rule gives one. |
| ImageLabels.CollectCounts | train.py:61-71 | A file the rule labels is kept as many times as it appears in the input, and a file it does not label is never kept. |
| ImageLabels.FirstMatch | train.py:64-69 | A label is found exactly when some key of `label_map` occurs in the name, and it is the value of the first such key in table order. |
| ImageLabels.FirstMatchAtUnique | train.py:65-69 | Only one key is the first match, so each kept file gets exactly one label. |
| ImageLabels.ClapImageLabels | train.py:58-71 | The lists have equal length, and the file list is an order-preserving subsequence of the listing. Each kept file is an image whose label is in 0..7 and is the value of the first `clap_<n>` key in its name. An image is dropped exactly when no key occurs in it. `traintransfer1.py:52-65` is the same function. |
| ImageLabels.ClapOneWins | train.py:21-69 | A name containing `clap_1`, such as `clap_12`, is always labelled 0. |
| ImageLabels.ClapTwelveIsLabelZero | train.py:21-71 | The listing `["clap_12.png"]` gives `["clap_12.png"]` with label `[0]`. |
| ImageLabels.UpperCaseNameDropped | traintransfer1.py:53-60 | `CLAP_1.PNG` passes the case-insensitive extension filter but matches no key, because key matching is case-sensitive, so it is dropped. |
| ImageLabels.SortNames | traineffic.py:53 | `sorted` returns the same names (the same multiset) in ascending code-point order. |
| ImageLabels.SortedSubsequence | traineffic.py:53-81 | Dropping files from a sorted list leaves it sorted. |
| ImageLabels.LexLeTotal | traineffic.py:53 | Any two names are comparable under string ordering. |
| ImageLabels.LexLeTransitive | traineffic.py:53 | String ordering is transitive. |
| ImageLabels.EfficLabel | traineffic.py:61-78 | Every label the chain assigns is in 0..7. |
| ImageLabels.EfficLabelIsFirstMatch | traineffic.py:59-78 | The `if`/`elif` chain is the first match over `label_map` reordered as turn_left, turn_right, left, right, up, down, backwards, forwards. |
| ImageLabels.EfficTableIsLabelMap | traineffic.py:20-29 | The reordered table holds each key of `label_map` once, with its `label_map` value, and no other key. |
| ImageLabels.TurnFormsWin | traineffic.py:61-66 | A name containing `turn_left` gets 6, never 0. Without `turn_left`, a name containing `turn_right` gets 7. |
| ImageLabels.LeftBeforeRight | traineffic.py:65-68 | With neither turn form, a name holding both `left` and `right` gets 0. |
| ImageLabels.NoKeywordNoLabel | traineffic.py:75-78 | A name holding none of the eight keywords is skipped. |
| ImageLabels.NoLabelWithoutLetters | traineffic.py:59-78 | A name with none of the letters t, i, u, n, b, s contains no keyword and gets no label. |
| ImageLabels.EfficImageLabels | traineffic.py:52-83 | The lists have equal length, the file list is sorted and a subsequence of the sorted image files, and each file comes from the listing. Labels are in 0..7 and are the chain's verdict on the lowercased name. An image is dropped exactly when the chain finds no keyword. |
| ImageLabels.ForwardWithoutS | traineffic.py:53-78 | `forward.jpg` is an image file, but `forward` without the `s` matches no keyword, so the listing `["forward.jpg"]` gives empty lists. |
| Text.ContainsIffOccurs | train.py:66 | Python's substring test holds exactly when the needle occurs at some position. |

## Left out

- Unity rendering and capture (`RenderTexture`, `Graphics.Blit`, `ReadPixels`, `GetPixels`, `SetPixels`): engine calls. The resize kernel is not modelled; `Pixels.ProcessImageToTensor` starts from the already resized 224 x 224 buffer.
- Barracuda inference and `ArgMax` (`PredictGesture`): opaque model execution whose tie-breaking is not visible. The predicted index is an input of `Clap.PredictionIteration`.
- The XR hand subsystem: tracked state and joint poses are inputs (`Hands.HandState`). No subsystem is `None`.
- Gestures.BuildJointData: stores each coordinate unrounded, because `Math.Round(v, 2)` on floating point is not modelled.
- Hands.JointNames: the printed name of joint value 1 is taken to be `Wrist`. In the XR Hands package that value is declared as both `BeginMarker` and `Wrist`, and .NET does not fix which name an aliased enum value formats as. So the key written at `Assets/dddtext.cs:232` may read `BeginMarker_X` instead.
- Gestures.SendHandJointData: the timestamp string and the JSON serialiser are parameters, because `DateTime.Now.ToString` and Newtonsoft's `SerializeObject` are library code. `PoseTarget.SendNatsMessage` takes `json.dumps` the same way.
- Float32 arithmetic: pixel channels, positions and times are reals, so normalisation and distances are exact.
- Lone surrogates: Dafny characters are Unicode scalar values, so the UTF-8 byte count of a C# string holding an unpaired surrogate is not modelled.
- `Text.Lower` lowercases ASCII letters only, because `str.lower()` on non-ASCII letters is not modelled.
- Several prediction loops at once: a loop started while an earlier one has not yet seen `isPredicting` cleared is not modelled. `Clap.PredictionIteration` models one iteration of one loop, and `Clap.Run` only the clap chain.
- The UI text updates and `Debug.Log` calls: they do not affect state.
- Network transport: WebSocket connect, `SendText`, `DispatchMessageQueue`, `InvokeRepeating`, `OnApplicationQuit` and `websockets.connect`. A send is the list of frames handed to the socket. `websock_test.py` and `websocket/websock_recv.py` are pure network I/O and are not part of this model.
- The YAML parser, opening the file (a missing file raises `FileNotFoundError`, line 31) and argument parsing of `webs_to_ext.py`: the configuration is a mapping from keys to lists of numbers. Non-list values are not modelled.
- `os.listdir` and `os.path.join`: a listing is a sequence of names, and a kept file is reported by its name, which is the basename of the joined path. Sorting joined paths with a common folder prefix orders them as their names are ordered.
- The PyTorch datasets, training loops, models and `train_test_split`; `converteffic.py` (ONNX export) and `classifyimagetransfer.py` (inference wrappers): numeric library code.
- `ResizeAndFlipTexture`'s `RenderTexture` depth buffer and texture formats: only the pixel order is modelled.

=== FILE: clap.dfy ===
/**
 * The clap trigger and the toggling it drives in the Unity component: `Update` and `CheckForClap`,
 * the continuations of the `HandleClapDetection` and `ResetClapAfterDelay` coroutines, and the
 * iterations of the `ContinuousPrediction` loop, each as an explicit transition over a record state.
 * Time is the engine's `Time.time`, a real supplied with each transition.
 */
module Clap {
  import opened Wrappers
  import opened Geometry
  import opened Hands
  import Gestures
  import Connection

  /** A point in time, or minus infinity (the initial `lastClapTime`). */
  datatype Stamp = NegInfinity | At(t: real)

  /** The inspector settings of the component. */
  datatype Config = Config(clapDistanceThreshold: real, clapCooldown: real)

  const DefaultConfig: Config := Config(0.1, 2.0)

  /** The waits of the coroutines, in seconds. */
  const ConfirmDelay: real := 0.5
  const SettleDelay: real := 1.0
  const ResetDelay: real := 1.5
  const PredictionDelay: real := 0.2

  /**
   * Where the clap-handling coroutine chain is suspended, with the time its wait ends.
   * `Confirming` and `Settling` are the two waits of `HandleClapDetection`, `Resetting` the wait
   * of the `ResetClapAfterDelay` it starts.
   */
  datatype Phase = Idle | Confirming(due: real) | Settling(due: real) | Resetting(due: real)

  /** The component's mutable fields, plus the suspension point of the clap-handling chain. */
  datatype State = State(
    lastClapTime: Stamp,
    isWaitingForDataCollection: bool,
    isPredicting: bool,
    phase: Phase,
    sampleNumber: int)

  const Init: State := State(NegInfinity, false, false, Idle, 0)

  /** `Time.time - lastClapTime > clapCooldown`; minus infinity is always far enough back. */
  predicate CooldownElapsed(last: Stamp, now: real, cooldown: real)
  {
    match last
    case NegInfinity => true
    case At(t) => now - t > cooldown
  }

  /** The result of one frame: the new state and whether a clap was accepted. */
  datatype Tick = Tick(state: State, clapped: bool)

  /** The first segment of `HandleClapDetection`, run synchronously by `StartCoroutine`. */
  function BeginClapHandling(s: State, now: real): (r: State)
    ensures r.isWaitingForDataCollection && r.phase == Confirming(now + ConfirmDelay)
    ensures r.lastClapTime == s.lastClapTime && r.isPredicting == s.isPredicting
    ensures r.sampleNumber == s.sampleNumber
  {
    s.(isWaitingForDataCollection := true, phase := Confirming(now + ConfirmDelay))
  }

  /**
   * `CheckForClap(left, right)` at time `now`. Nothing happens unless both hands are tracked and both
   * palm poses are obtained; a clap is accepted exactly when the palms are within the threshold and
   * strictly more than the cooldown has passed since `lastClapTime`, and then `lastClapTime` becomes
   * `now` and clap handling begins.
   */
  function CheckForClap(cfg: Config, s: State, left: HandState, right: HandState, now: real): (r: Tick)
    ensures !left.isTracked || !right.isTracked ==> r == Tick(s, false)
    ensures Palm !in left.poses || Palm !in right.poses ==> r == Tick(s, false)
    ensures r.clapped <==>
      left.isTracked && right.isTracked && Palm in left.poses && Palm in right.poses
      && WithinDistance(left.poses[Palm], right.poses[Palm], cfg.clapDistanceThreshold)
      && CooldownElapsed(s.lastClapTime, now, cfg.clapCooldown)
    ensures r.clapped ==> r.state == BeginClapHandling(s.(lastClapTime := At(now)), now)
    ensures !r.clapped ==> r.state == s
  {
    if !left.isTracked || !right.isTracked then Tick(s, false)
    else
      match (TryGetPose(left, Palm), TryGetPose(right, Palm))
      case (Some(lp), Some(rp)) =>
        if WithinDistance(lp, rp, cfg.clapDistanceThreshold) && CooldownElapsed(s.lastClapTime, now, cfg.clapCooldown)
        then Tick(BeginClapHandling(s.(lastClapTime := At(now)), now), true)
        else Tick(s, false)
      case _ => Tick(s, false)
  }

  /**
   * `Update()` at time `now`. `hands` is `None` when there is no hand subsystem. While clap handling
   * is in progress no clap check runs and nothing changes.
   */
  function Update(cfg: Config, s: State, hands: Option<(HandState, HandState)>, now: real): (r: Tick)
    ensures hands.None? || s.isWaitingForDataCollection ==> r == Tick(s, false)
    ensures hands.Some? && !s.isWaitingForDataCollection ==>
      r == CheckForClap(cfg, s, hands.value.0, hands.value.1, now)
    ensures r.clapped <==>
      && hands.Some? && !s.isWaitingForDataCollection
      && hands.value.0.isTracked && hands.value.1.isTracked
      && Palm in hands.value.0.poses && Palm in hands.value.1.poses
      && WithinDistance(hands.value.0.poses[Palm], hands.value.1.poses[Palm], cfg.clapDistanceThreshold)
      && CooldownElapsed(s.lastClapTime, now, cfg.clapCooldown)
    ensures !r.clapped ==> r.state == s
    ensures r.clapped ==>
      && r.state.lastClapTime == At(now) && r.state.isWaitingForDataCollection
      && r.state.phase == Confirming(now + ConfirmDelay)
      && r.state.isPredicting == s.isPredicting && r.state.sampleNumber == s.sampleNumber
  {
    if hands.Some? && !s.isWaitingForDataCollection then CheckForClap(cfg, s, hands.value.0, hands.value.1, now)
    else Tick(s, false)
  }

  /** The first clap check from the initial state passes the cooldown whatever the time. */
  lemma FirstClapPassesCooldown(cfg: Config, left: HandState, right: HandState, now: real)
    ensures CheckForClap(cfg, Init, left, right, now).clapped <==>
      left.isTracked && right.isTracked && Palm in left.poses && Palm in right.poses
      && WithinDistance(left.poses[Palm], right.poses[Palm], cfg.clapDistanceThreshold)
  {
  }

  /** Feeding the same hands twice in one frame accepts at most one clap. */
  lemma AtMostOneClapPerFrame(cfg: Config, s: State, hands: Option<(HandState, HandState)>, now: real)
    ensures var first := Update(cfg, s, hands, now);
      !(first.clapped && Update(cfg, first.state, hands, now).clapped)
    ensures var first := Update(cfg, s, hands, now);
      !first.clapped ==> Update(cfg, first.state, hands, now) == first
  {
  }

  // ---------------------------------------------------------------------------
  // Coroutine continuations
  // ---------------------------------------------------------------------------

  /** What resuming a continuation produces: the new state and whether a prediction loop starts. */
  datatype Resumed = Resumed(state: State, startsPrediction: bool)

  /**
   * The second segment of `HandleClapDetection`, after its first wait: `isPredicting` flips, a
   * prediction loop is started exactly when the flip is from false to true, and the second wait begins.
   */
  function ConfirmClap(s: State, now: real): (r: Resumed)
    requires s.phase.Confirming? && now >= s.phase.due
    ensures r.state.isPredicting == !s.isPredicting
    ensures r.startsPrediction <==> !s.isPredicting
    ensures r.state.phase == Settling(now + SettleDelay)
    ensures r.state.lastClapTime == s.lastClapTime
    ensures r.state.isWaitingForDataCollection == s.isWaitingForDataCollection
    ensures r.state.sampleNumber == s.sampleNumber
    ensures r.startsPrediction ==> LoopCondition(r.state) == AtEndOfFrame
    ensures !r.startsPrediction ==> LoopCondition(r.state) == Exited
  {
    var flipped := !s.isPredicting;
    Resumed(s.(isPredicting := flipped, phase := Settling(now + SettleDelay)), flipped)
  }

  /** The last segment of `HandleClapDetection`: it starts `ResetClapAfterDelay(1.5)`, which waits. */
  function SettleClap(s: State, now: real): (r: State)
    requires s.phase.Settling? && now >= s.phase.due
    ensures r.phase == Resetting(now + ResetDelay)
    ensures r.lastClapTime == s.lastClapTime && r.isPredicting == s.isPredicting
    ensures r.isWaitingForDataCollection == s.isWaitingForDataCollection
    ensures r.sampleNumber == s.sampleNumber
  {
    s.(phase := Resetting(now + ResetDelay))
  }

  /**
   * The segment of `ResetClapAfterDelay` after its wait: `lastClapTime` is overwritten with the reset
   * time and the busy flag is cleared, so clap checks resume.
   */
  function ResetClap(s: State, now: real): (r: State)
    requires s.phase.Resetting? && now >= s.phase.due
    ensures r.lastClapTime == At(now) && !r.isWaitingForDataCollection && r.phase == Idle
    ensures r.isPredicting == s.isPredicting && r.sampleNumber == s.sampleNumber
  {
    s.(lastClapTime := At(now), isWaitingForDataCollection := false, phase := Idle)
  }

  /** The scheduler's step for the clap-handling chain: resume it if its wait is over. */
  function Resume(s: State, now: real): (r: Resumed)
    ensures s.phase.Idle? || now < s.phase.due ==> r == Resumed(s, false)
    ensures r.state.isPredicting != s.isPredicting <==> s.phase.Confirming? && now >= s.phase.due
    ensures r.startsPrediction <==> s.phase.Confirming? && now >= s.phase.due && !s.isPredicting
    ensures s.phase.Confirming? && now >= s.phase.due ==> r.state.phase == Settling(now + SettleDelay)
    ensures s.phase.Settling? && now >= s.phase.due ==> r.state.phase == Resetting(now + ResetDelay)
    ensures s.phase.Resetting? && now >= s.phase.due ==>
      r.state.lastClapTime == At(now) && !r.state.isWaitingForDataCollection && r.state.phase == Idle
    ensures !(s.phase.Resetting? && now >= s.phase.due) ==>
      r.state.lastClapTime == s.lastClapTime && r.state.isWaitingForDataCollection == s.isWaitingForDataCollection
    ensures r.state.sampleNumber == s.sampleNumber
  {
    match s.phase
    case Confirming(due) => if now >= due then ConfirmClap(s, now) else Resumed(s, false)
    case Settling(due) => if now >= due then Resumed(SettleClap(s, now), false) else Resumed(s, false)
    case Resetting(due) => if now >= due then Resumed(ResetClap(s, now), false) else Resumed(s, false)
    case Idle => Resumed(s, false)
  }

  /** After a reset at time `r`, the next clap needs strictly more than the cooldown past `r`. */
  lemma NextClapAfterReset(cfg: Config, s: State, r: real, left: HandState, right: HandState, now: real)
    requires s.phase.Resetting? && r >= s.phase.due
    ensures Update(cfg, ResetClap(s, r), Some((left, right)), now).clapped ==> now > r + cfg.clapCooldown
  {
  }

  // ---------------------------------------------------------------------------
  // The prediction loop
  // ---------------------------------------------------------------------------

  /** Where one `ContinuousPrediction` instance is suspended. */
  datatype LoopPoint = AtEndOfFrame | Delaying(due: real) | Exited

  /**
   * The loop's `while (isPredicting)` test, run when it starts and again when each 0.2 s wait
   * ends: on to the end-of-frame wait, or out of the loop.
   */
  function LoopCondition(s: State): LoopPoint
  {
    if s.isPredicting then AtEndOfFrame else Exited
  }

  /**
   * One iteration of `ContinuousPrediction` after its end-of-frame wait: the frame is classified to
   * `predictedIndex` (capture and inference are not part of this model), then, if `isPredicting` was
   * cleared during that wait, the loop exits without sending; otherwise the joint data is sent and the
   * loop waits 0.2 s. Nothing but the sample number changes. `data` is the joint dictionary built
   * for the jointData frame, when one is built.
   */
  method PredictionIteration(s: State, now: real, predictedIndex: int, leftHand: Option<HandState>,
                             timestamp: string, socket: Option<Connection.SocketState>,
                             serialise: map<string, Gestures.Value> -> string)
    returns (r: State, next: LoopPoint, sent: seq<string>, data: Option<map<string, Gestures.Value>>)
    requires Gestures.IsInt32(s.sampleNumber)
    ensures !s.isPredicting ==> r == s && next == Exited && sent == [] && data.None?
    ensures s.isPredicting ==> next == Delaying(now + PredictionDelay)
    ensures r.lastClapTime == s.lastClapTime && r.isWaitingForDataCollection == s.isWaitingForDataCollection
    ensures r.isPredicting == s.isPredicting && r.phase == s.phase
    ensures Gestures.IsInt32(r.sampleNumber)
    ensures s.isPredicting && leftHand.Some? && leftHand.value.isTracked ==>
      r.sampleNumber == Gestures.Int32Increment(s.sampleNumber)
    ensures s.isPredicting && (leftHand.None? || !leftHand.value.isTracked) ==>
      r.sampleNumber == s.sampleNumber && sent == [] && data.None?
    ensures s.isPredicting && leftHand.Some? && leftHand.value.isTracked ==>
      data.Some?
      && "gesture" in data.value && data.value["gesture"] == Gestures.Text(Gestures.GetGestureName(predictedIndex))
      && "sampleNumber" in data.value && data.value["sampleNumber"] == Gestures.Int(r.sampleNumber)
      && "timestamp" in data.value && data.value["timestamp"] == Gestures.Text(timestamp)
    ensures s.isPredicting && leftHand.Some? && leftHand.value.isTracked && socket != Some(Connection.Open) ==>
      sent == []
    ensures s.isPredicting && leftHand.Some? && leftHand.value.isTracked && socket == Some(Connection.Open) ==>
      |sent| == 2 && data.Some?
      && sent[0] == Connection.HandDataFrame(serialise(data.value))
      && sent[1] == Connection.HandDataFrame(Gestures.QuotedGesture(Gestures.GetGestureName(predictedIndex)))
  {
    var predicted := Gestures.GetGestureName(predictedIndex);
    if !s.isPredicting {
      return s, Exited, [], None;
    }
    var n, frames, d := Gestures.SendHandJointData(s.sampleNumber, predicted, leftHand, timestamp, socket, serialise);
    r := s.(sampleNumber := n);
    next := Delaying(now + PredictionDelay);
    sent := frames;
    data := d;
  }

  // ---------------------------------------------------------------------------
  // Runs
  // ---------------------------------------------------------------------------

  /** What the engine does to the clap logic: a frame's `Update`, or resuming the clap-handling chain. */
  datatype Event = Frame(now: real, hands: Option<(HandState, HandState)>) | Continue(now: real)

  function EventTime(e: Event): real
  {
    match e
    case Frame(t, _) => t
    case Continue(t) => t
  }

  /** The times of a run never go backwards, and none is before `clock`. */
  predicate Chronological(clock: real, es: seq<Event>)
  {
    (|es| > 0 ==> clock <= EventTime(es[0]))
    && forall i :: 0 <= i < |es| - 1 ==> EventTime(es[i]) <= EventTime(es[i + 1])
  }

  /** The state after a sequence of events, and the times of the claps accepted on the way. */
  datatype Outcome = Outcome(state: State, claps: seq<real>)

  function Run(cfg: Config, s: State, es: seq<Event>): Outcome
    decreases |es|
  {
    if |es| == 0 then Outcome(s, [])
    else
      match es[0]
      case Frame(now, hands) =>
        var t := Update(cfg, s, hands, now);
        var rest := Run(cfg, t.state, es[1..]);
        if t.clapped then Outcome(rest.state, [now] + rest.claps) else rest
      case Continue(now) =>
        Run(cfg, Resume(s, now).state, es[1..])
  }

  /** Total wait of the clap-handling chain between an accepted clap and the reset. */
  const ChainDelay: real := ConfirmDelay + SettleDelay + ResetDelay

  /**
   * What holds between events: the busy flag is set exactly while the chain is suspended; before the
   * first clap nothing has moved; after a clap at `last`, each suspension ends no earlier than the
   * waits since `last` allow, and once idle again `lastClapTime` is the reset time, at least the
   * whole chain's delay after `last`.
   */
  ghost predicate ChainInvariant(s: State, last: Option<real>, clock: real)
  {
    && (s.isWaitingForDataCollection <==> !s.phase.Idle?)
    && (last.None? ==> s.phase.Idle? && s.lastClapTime == NegInfinity)
    && (last.Some? ==>
          && last.value <= clock
          && match s.phase
             case Idle => s.lastClapTime.At? && s.lastClapTime.t >= last.value + ChainDelay
             case Confirming(d) => s.lastClapTime == At(last.value) && d == last.value + ConfirmDelay
             case Settling(d) => d >= last.value + ConfirmDelay + SettleDelay
             case Resetting(d) => d >= last.value + ChainDelay)
  }

  /** Claps in the list are more than the chain delay plus the cooldown apart, and all after `last`. */
  ghost predicate Spaced(last: Option<real>, claps: seq<real>, cooldown: real)
  {
    && (last.Some? && |claps| > 0 ==> claps[0] > last.value + ChainDelay + cooldown)
    && forall i :: 0 <= i < |claps| - 1 ==> claps[i + 1] > claps[i] + ChainDelay + cooldown
  }

  lemma {:induction false} RunSpaced(cfg: Config, s: State, last: Option<real>, clock: real, es: seq<Event>)
    requires ChainInvariant(s, last, clock)
    requires Chronological(clock, es)
    ensures Spaced(last, Run(cfg, s, es).claps, cfg.clapCooldown)
    decreases |es|
  {
    if |es| > 0 {
      var now := EventTime(es[0]);
      assert Chronological(now, es[1..]);
      match es[0]
      case Frame(_, hands) =>
        var t := Update(cfg, s, hands, now);
        if t.clapped {
          assert ChainInvariant(t.state, Some(now), now);
          RunSpaced(cfg, t.state, Some(now), now, es[1..]);
        } else {
          RunSpaced(cfg, t.state, last, now, es[1..]);
        }
      case Continue(_) =>
        var r := Resume(s, now).state;
        assert ChainInvariant(r, last, now);
        RunSpaced(cfg, r, last, now, es[1..]);
    }
  }

  /**
   * In any run from the initial state with time never going backwards, two accepted claps are
   * more than the chain's 3 s plus the cooldown apart — so in particular more than the cooldown.
   */
  lemma ClapsSpacedByCooldown(cfg: Config, clock: real, es: seq<Event>)
    requires Chronological(clock, es)
    ensures var claps := Run(cfg, Init, es).claps;
      forall i :: 0 <= i < |claps| - 1 ==> claps[i + 1] - claps[i] > ChainDelay + cfg.clapCooldown
  {
    RunSpaced(cfg, Init, None, clock, es);
  }

  /** The claps of a run whose `isPredicting` flip has happened: all but one still waiting to confirm. */
  function Confirmed(s: State, claps: nat): int
  {
    if s.phase.Confirming? then claps - 1 else claps
  }

  /**
   * What holds between events about the toggle: the busy flag is set exactly while the chain is
   * suspended, and `isPredicting` is on exactly after an odd number of confirmed claps.
   */
  ghost predicate ToggleInvariant(s: State, claps: nat)
  {
    && (s.isWaitingForDataCollection <==> !s.phase.Idle?)
    && Confirmed(s, claps) >= 0
    && (s.isPredicting <==> Confirmed(s, claps) % 2 == 1)
  }

  lemma {:induction false} RunToggles(cfg: Config, s: State, n: nat, es: seq<Event>)
    requires ToggleInvariant(s, n)
    ensures ToggleInvariant(Run(cfg, s, es).state, n + |Run(cfg, s, es).claps|)
    decreases |es|
  {
    if |es| > 0 {
      match es[0]
      case Frame(now, hands) =>
        var t := Update(cfg, s, hands, now);
        if t.clapped {
          assert ToggleInvariant(t.state, n + 1);
          RunToggles(cfg, t.state, n + 1, es[1..]);
        } else {
          RunToggles(cfg, t.state, n, es[1..]);
        }
      case Continue(now) =>
        var r := Resume(s, now).state;
        assert ToggleInvariant(r, n);
        RunToggles(cfg, r, n, es[1..]);
    }
  }

  /**
   * Every accepted clap flips `isPredicting` exactly once: after any run from the initial state,
   * prediction is on, and the prediction loop passes its condition, exactly when an odd number of
   * accepted claps have reached their flip (a clap still in its first 0.5 s wait has not yet).
   */
  lemma PredictionFollowsConfirmedClaps(cfg: Config, es: seq<Event>)
    ensures var o := Run(cfg, Init, es);
      && (o.state.phase.Confirming? ==> |o.claps| >= 1)
      && (o.state.isPredicting <==> Confirmed(o.state, |o.claps|) % 2 == 1)
      && (LoopCondition(o.state) == AtEndOfFrame <==> Confirmed(o.state, |o.claps|) % 2 == 1)
  {
    RunToggles(cfg, Init, 0, es);
  }

  /** Two tracked hands whose palms are 0.05 apart. */
  const NearHands: (HandState, HandState) :=
    (HandState(true, map[Palm := Vec3(0.0, 0.0, 0.0)]), HandState(true, map[Palm := Vec3(0.05, 0.0, 0.0)]))

  /**
   * With the default settings and the palms held together: a clap at 0 s; none at 1 s nor at 2.1 s,
   * because handling is still in progress; none at 4 s, because the reset at 3 s restarted the
   * cooldown; and the next one at 5.1 s.
   */
  lemma HeldClapScenario()
    ensures Run(DefaultConfig, Init, [Frame(0.0, Some(NearHands)), Frame(1.0, Some(NearHands)),
                                      Frame(2.1, Some(NearHands))]).claps == [0.0]
    ensures Run(DefaultConfig, Init, [Frame(0.0, Some(NearHands)), Continue(0.5), Continue(1.5),
                                      Continue(3.0), Frame(4.0, Some(NearHands)),
                                      Frame(5.1, Some(NearHands))]).claps == [0.0, 5.1]
  {
    var cfg := DefaultConfig;
    var h := Some(NearHands);
    assert WithinDistance(NearHands.0.poses[Palm], NearHands.1.poses[Palm], 0.1);
    var t1 := Update(cfg, Init, h, 0.0);
    assert t1.clapped;
    var s1 := t1.state;
    // Busy: the frames at 1 s and 2.1 s change nothing.
    assert Run(cfg, s1, []) == Outcome(s1, []);
    assert Run(cfg, s1, [Frame(2.1, h)]) == Outcome(s1, []);
    assert Run(cfg, s1, [Frame(1.0, h), Frame(2.1, h)]) == Outcome(s1, []);
    assert Run(cfg, Init, [Frame(0.0, h), Frame(1.0, h), Frame(2.1, h)]).claps == [0.0];
    // The chain runs to its reset at 3 s.
    var s2 := Resume(s1, 0.5).state;
    var s3 := Resume(s2, 1.5).state;
    var s4 := Resume(s3, 3.0).state;
    assert s4.lastClapTime == At(3.0) && !s4.isWaitingForDataCollection;
    assert !Update(cfg, s4, h, 4.0).clapped;
    var t6 := Update(cfg, s4, h, 5.1);
    assert t6.clapped;
    assert Run(cfg, t6.state, []) == Outcome(t6.state, []);
    assert Run(cfg, s4, [Frame(5.1, h)]).claps == [5.1];
    assert Run(cfg, s4, [Frame(4.0, h), Frame(5.1, h)]).claps == [5.1];
    assert Run(cfg, s3, [Continue(3.0), Frame(4.0, h), Frame(5.1, h)]).claps == [5.1];
    assert Run(cfg, s2, [Continue(1.5), Continue(3.0), Frame(4.0, h), Frame(5.1, h)]).claps == [5.1];
    assert Run(cfg, s1, [Continue(0.5), Continue(1.5), Continue(3.0), Frame(4.0, h), Frame(5.1, h)]).claps == [5.1];
  }
}

=== FILE: connection.dfy ===
/** The publishing side of the Unity `Connection` component: PUB frames over a WebSocket. */
module Connection {
  import opened Wrappers
  import opened Utf8
  import opened Nats

  /** `WebSocketState` of the WebSocket client. */
  datatype SocketState = Connecting | Open | Closing | Closed

  /** The one subject every frame is published on. */
  const PoseSubject: string := "subject.pose"

  /** The frame `SendHandData` builds around a JSON message: its length field is the UTF-8 byte count. */
  function HandDataFrame(jsonMessage: string): string
  {
    PubFrame(PoseSubject, ByteCount(jsonMessage), jsonMessage)
  }

  /**
   * `SendHandData(subject, jsonMessage)`: the frames handed to the socket. A missing socket (`None`)
   * or one not open sends nothing (the source logs a warning); an open one sends one frame, whose
   * subject is always `subject.pose` whatever `subject` says, and which reads back as the message's bytes.
   */
  function SendHandData(socket: Option<SocketState>, subject: string, jsonMessage: string): (sent: seq<string>)
    ensures |sent| <= 1
    ensures |sent| == 1 <==> socket == Some(Open)
    ensures forall f :: f in sent ==> ParsePub(Encode(f)) == Some(Pub(PoseSubject, Encode(jsonMessage), []))
  {
    if socket == Some(Open) then
      ParsePubRoundTrip(PoseSubject, jsonMessage, []);
      assert Encode(HandDataFrame(jsonMessage)) + [] == Encode(HandDataFrame(jsonMessage));
      [HandDataFrame(jsonMessage)]
    else []
  }

  /** The subject argument has no effect on what is sent. */
  lemma SubjectIgnored(socket: Option<SocketState>, s1: string, s2: string, jsonMessage: string)
    ensures SendHandData(socket, s1, jsonMessage) == SendHandData(socket, s2, jsonMessage)
  {
  }

  /** The fixed frame `SendWebSocketMessage` sends on open and on every repeat. */
  const TestFrame: string := "PUB subject.pose 5\r\nHello\r\n"

  /** The byte string `SendWebSocketMessage` builds (and only logs the length of). */
  const LoggedTestFrame: string := "PUB test.subject 5\r\nHello\r\n"

  /** `SendWebSocketMessage`: the fixed frame, sent only while the socket is open. */
  function SendWebSocketMessage(state: SocketState): (sent: seq<string>)
    ensures |sent| == 1 <==> state == Open
    ensures |sent| <= 1
    ensures forall f :: f in sent ==> ParsePub(Encode(f)) == Some(Pub(PoseSubject, Encode("Hello"), []))
  {
    if state == Open then
      TestFrameIsHandDataFrame();
      assert SendHandData(Some(Open), PoseSubject, "Hello") == [TestFrame];
      [TestFrame]
    else []
  }

  /**
   * The length field 5 of the fixed frames is the byte count of `Hello`, so the fixed frame is what
   * `SendHandData` would build for `Hello`, and the logged frame reads back with its own subject.
   */
  lemma TestFrameIsHandDataFrame()
    ensures ByteCount("Hello") == 5
    ensures TestFrame == HandDataFrame("Hello")
    ensures ParsePub(Encode(LoggedTestFrame)) == Some(Pub("test.subject", Encode("Hello"), []))
  {
    HelloIsFiveBytes();
    FramesSpelledOut();
    ParsePubRoundTrip("test.subject", "Hello", []);
    assert Encode(LoggedTestFrame) + [] == Encode(LoggedTestFrame);
  }

  lemma FramesSpelledOut()
    ensures TestFrame == PubFrame(PoseSubject, 5, "Hello")
    ensures LoggedTestFrame == PubFrame("test.subject", 5, "Hello")
    ensures ValidSubject("test.subject")
  {
    FiveSpelledOut();
    TestFrameSpelledOut();
    LoggedFrameSpelledOut();
    TestSubjectValid();
  }

  lemma FiveSpelledOut()
    ensures Text.Decimal(5) == "5"
  {
  }

  lemma TestFrameSpelledOut()
    requires Text.Decimal(5) == "5"
    ensures TestFrame == PubFrame(PoseSubject, 5, "Hello")
  {
  }

  lemma LoggedFrameSpelledOut()
    requires Text.Decimal(5) == "5"
    ensures LoggedTestFrame == PubFrame("test.subject", 5, "Hello")
  {
  }

  lemma TestSubjectValid()
    ensures ValidSubject("test.subject")
  {
  }

  /**
   * The prediction frame for the gesture payload `"hi"` (quotes included) says 4 bytes and
   * `subject.pose`, whatever subject the caller names.
   */
  lemma QuotedHiFrame(payload: string)
    requires payload == "\"hi\""
    ensures SendHandData(Some(Open), "hand.jointData", payload) == ["PUB subject.pose 4\r\n\"hi\"\r\n"]
  {
    assert forall i :: 0 <= i < |payload| ==> payload[i] as int < 0x80;
    Utf8.ByteCountIsLengthIffAscii(payload);
    assert ByteCount(payload) == 4;
    assert Text.Decimal(4) == "4";
    assert PubHeader(PoseSubject, 4) == "PUB subject.pose 4";
    assert HandDataFrame(payload) == "PUB subject.pose 4" + "\r\n" + payload + "\r\n";
    assert "PUB subject.pose 4" + "\r\n" + payload + "\r\n" == "PUB subject.pose 4\r\n\"hi\"\r\n";
    assert SendHandData(Some(Open), "hand.jointData", payload) == [HandDataFrame(payload)];
  }

  lemma HelloIsFiveBytes()
    ensures ByteCount("Hello") == 5
  {
    var h := "Hello";
    assert forall i :: 0 <= i < |h| ==> h[i] as int < 0x80;
    Utf8.ByteCountIsLengthIffAscii(h);
  }
}

=== FILE: geometry.dfy ===
/** Positions in tracking space, as Unity's `Vector3` over the reals. */
module Geometry {

  datatype Vec3 = Vec3(x: real, y: real, z: real)

  /** The square of `Vector3.Distance(a, b)`. */
  function SqDist(a: Vec3, b: Vec3): (d: real)
    ensures d >= 0.0
  {
    var dx := a.x - b.x;
    var dy := a.y - b.y;
    var dz := a.z - b.z;
    SquareNonNegative(dx);
    SquareNonNegative(dy);
    SquareNonNegative(dz);
    dx * dx + dy * dy + dz * dz
  }

  lemma SquareNonNegative(v: real)
    ensures v * v >= 0.0
  {
    if v < 0.0 {
      assert v * v == (-v) * (-v);
    }
  }

  /**
   * `Vector3.Distance(a, b) <= threshold`, decided without a square root: a distance is never
   * negative, and for a non-negative threshold comparing squares is equivalent.
   */
  predicate WithinDistance(a: Vec3, b: Vec3, threshold: real)
  {
    threshold >= 0.0 && SqDist(a, b) <= threshold * threshold
  }

  /** The relation is symmetric and reflexive for any non-negative threshold. */
  lemma WithinDistanceSymmetric(a: Vec3, b: Vec3, threshold: real)
    ensures WithinDistance(a, b, threshold) <==> WithinDistance(b, a, threshold)
    ensures threshold >= 0.0 ==> WithinDistance(a, a, threshold)
  {
    assert SqDist(a, b) == SqDist(b, a);
  }
}

=== FILE: gestures.dfy ===
/**
 * Label decoding and the joint-data message of the Unity component: the gesture table the
 * classifier's arg-max index is looked up in, and the key/value map sent with each prediction.
 */
module Gestures {
  import opened Wrappers
  import opened Geometry
  import opened Hands
  import Connection
  import Nats
  import Utf8

  // ---------------------------------------------------------------------------
  // Label table
  // ---------------------------------------------------------------------------

  /** The gesture names, indexed by classifier output. Index 4 reads `back`. */
  const GestureTable: seq<string> := ["left", "up", "right", "down", "back", "forward", "turn left", "turn right"]

  /** What an index outside the table decodes to. */
  const UnknownGesture: string := "Unknown Gesture"

  /** The label names of the Python training script, indexed by class. Index 4 reads `backwards`. */
  const TrainLabelNames: seq<string> := ["left", "up", "right", "down", "backwards", "forward", "turn left", "turn right"]

  /** `GetGestureName(index)`: the table entry for an index in range, the sentinel otherwise. */
  function GetGestureName(index: int): (name: string)
    ensures 0 <= index < |GestureTable| ==> name == GestureTable[index]
    ensures !(0 <= index < |GestureTable|) ==> name == UnknownGesture
    ensures name in GestureTable <==> 0 <= index < |GestureTable|
    ensures 0 <= index < |GestureTable| ==> GestureIndex(name) == Some(index as nat)
  {
    if 0 <= index < |GestureTable| then
      assert GestureIndex(GestureTable[index]) == Some(index as nat) by {
        if index == 0 {} else if index == 1 {} else if index == 2 {} else if index == 3 {}
        else if index == 4 {} else if index == 5 {} else if index == 6 {} else {}
      }
      GestureTable[index]
    else UnknownGesture
  }

  /** The class index a gesture name stands for: its position in the table. */
  function GestureIndex(name: string): (r: Option<nat>)
    ensures r.Some? ==> r.value < |GestureTable| && GestureTable[r.value] == name
    ensures r.None? ==> name !in GestureTable
  {
    if name == "left" then Some(0)
    else if name == "up" then Some(1)
    else if name == "right" then Some(2)
    else if name == "down" then Some(3)
    else if name == "back" then Some(4)
    else if name == "forward" then Some(5)
    else if name == "turn left" then Some(6)
    else if name == "turn right" then Some(7)
    else None
  }

  /**
   * Decoding loses nothing: a decoded name gives back its index, and the sentinel is told apart
   * from every real gesture, so an out-of-range index is never mistaken for a gesture.
   */
  lemma GestureNameRoundTrip(index: int)
    ensures 0 <= index < |GestureTable| ==> GestureIndex(GetGestureName(index)) == Some(index as nat)
    ensures !(0 <= index < |GestureTable|) <==> GestureIndex(GetGestureName(index)).None?
  {
  }

  /** The Unity table and the training script's names agree everywhere except at index 4. */
  lemma TablesDifferOnlyAtBack()
    ensures |GestureTable| == |TrainLabelNames| == 8
    ensures forall i :: 0 <= i < 8 ==> (GestureTable[i] == TrainLabelNames[i] <==> i != 4)
  {
  }

  // ---------------------------------------------------------------------------
  // Joint-data message
  // ---------------------------------------------------------------------------

  /** A value of the joint-data dictionary. */
  datatype Value = Text(s: string) | Int(i: int) | Coord(r: real)

  const AxisSuffixes: seq<string> := ["_X", "_Y", "_Z"]

  /** The dictionary key of one axis of one joint: `<JointName>_X`, `_Y` or `_Z`. */
  function JointKey(id: int, axis: int): string
    requires 0 <= id <= LittleTip && 0 <= axis < 3
  {
    JointNames[id] + AxisSuffixes[axis]
  }

  /** One coordinate of a position: 0 for x, 1 for y, 2 for z. */
  function Axis(p: Vec3, axis: int): real
    requires 0 <= axis < 3
  {
    if axis == 0 then p.x else if axis == 1 then p.y else p.z
  }

  /** The three keys every message carries. */
  predicate IsFixedKey(k: string)
  {
    k == "timestamp" || k == "gesture" || k == "sampleNumber"
  }

  /** The joint names are pairwise distinct. */
  lemma JointNamesDistinct()
    ensures forall i, j :: 0 <= i < j < |JointNames| ==> JointNames[i] != JointNames[j]
  {
  }

  /** Different (joint, axis) pairs have different keys, and no joint key is one of the fixed keys. */
  lemma JointKeysDistinct(i: int, a: int, j: int, b: int)
    requires 0 <= i <= LittleTip && 0 <= a < 3
    requires 0 <= j <= LittleTip && 0 <= b < 3
    ensures JointKey(i, a) == JointKey(j, b) ==> i == j && a == b
    ensures !IsFixedKey(JointKey(i, a))
  {
    var ki := JointKey(i, a);
    var kj := JointKey(j, b);
    if ki == kj {
      assert ki[|ki| - 2..] == AxisSuffixes[a];
      assert kj[|kj| - 2..] == AxisSuffixes[b];
      assert JointNames[i] == ki[..|ki| - 2];
      assert JointNames[j] == kj[..|kj| - 2];
      JointNamesDistinct();
    }
    assert ki[|ki| - 2] == '_';
  }

  /** Joint keys name their joint and axis, and none is a fixed key. */
  lemma JointKeysInjective()
    ensures forall i, a, j, b :: 0 <= i <= LittleTip && 0 <= a < 3 && 0 <= j <= LittleTip && 0 <= b < 3 ==>
      (JointKey(i, a) == JointKey(j, b) ==> i == j && a == b)
    ensures forall i, a :: 0 <= i <= LittleTip && 0 <= a < 3 ==> !IsFixedKey(JointKey(i, a))
  {
    forall i, a, j, b | 0 <= i <= LittleTip && 0 <= a < 3 && 0 <= j <= LittleTip && 0 <= b < 3
      ensures JointKey(i, a) == JointKey(j, b) ==> i == j && a == b
      ensures !IsFixedKey(JointKey(i, a))
    {
      JointKeysDistinct(i, a, j, b);
    }
  }

  /** The three entries the loop adds for joint `id` at position `p`. */
  function WithJoint(data: map<string, Value>, id: int, p: Vec3): (d: map<string, Value>)
    requires 0 <= id <= LittleTip
    ensures forall k :: k in d <==> k in data || k == JointKey(id, 0) || k == JointKey(id, 1) || k == JointKey(id, 2)
    ensures forall a :: 0 <= a < 3 ==> d[JointKey(id, a)] == Coord(Axis(p, a))
    ensures forall k :: k in data && k != JointKey(id, 0) && k != JointKey(id, 1) && k != JointKey(id, 2) ==>
      d[k] == data[k]
  {
    JointKeysDistinct(id, 0, id, 1);
    JointKeysDistinct(id, 0, id, 2);
    JointKeysDistinct(id, 1, id, 2);
    data[JointKey(id, 0) := Coord(p.x)][JointKey(id, 1) := Coord(p.y)][JointKey(id, 2) := Coord(p.z)]
  }

  /**
   * The joint-data dictionary of `SendHandJointData`, built by its loop over joint values
   * `0..LittleTip`: the three fixed entries, then x, y and z of every joint other than `Invalid`
   * whose pose is available, and nothing else.
   */
  method BuildJointData(timestamp: string, gesture: string, sampleNumber: int, hand: HandState)
    returns (data: map<string, Value>)
    ensures "timestamp" in data && data["timestamp"] == Text(timestamp)
    ensures "gesture" in data && data["gesture"] == Text(gesture)
    ensures "sampleNumber" in data && data["sampleNumber"] == Int(sampleNumber)
    ensures forall j, a :: 0 <= j <= LittleTip && 0 <= a < 3 ==>
      (JointKey(j, a) in data <==> j != Invalid && j in hand.poses)
    ensures forall j, a :: 0 < j <= LittleTip && 0 <= a < 3 && j in hand.poses ==>
      JointKey(j, a) in data && data[JointKey(j, a)] == Coord(Axis(hand.poses[j], a))
    ensures forall k :: k in data ==>
      IsFixedKey(k) || exists j, a :: 0 < j <= LittleTip && 0 <= a < 3 && k == JointKey(j, a)
  {
    data := map["timestamp" := Text(timestamp), "gesture" := Text(gesture), "sampleNumber" := Int(sampleNumber)];
    JointKeysInjective();
    var i := 0;
    while i <= LittleTip
      invariant 0 <= i <= LittleTip + 1
      invariant "timestamp" in data && data["timestamp"] == Text(timestamp)
      invariant "gesture" in data && data["gesture"] == Text(gesture)
      invariant "sampleNumber" in data && data["sampleNumber"] == Int(sampleNumber)
      invariant forall j, a :: 0 <= j <= LittleTip && 0 <= a < 3 ==>
        (JointKey(j, a) in data <==> j < i && j != Invalid && j in hand.poses)
      invariant forall j, a :: 0 < j < i && 0 <= a < 3 && j in hand.poses ==>
        data[JointKey(j, a)] == Coord(Axis(hand.poses[j], a))
      invariant forall k :: k in data ==>
        IsFixedKey(k) || exists j, a :: 0 < j < i && 0 <= a < 3 && k == JointKey(j, a)
    {
      if i != Invalid {
        var pose := TryGetPose(hand, i);
        if pose.Some? {
          data := WithJoint(data, i, pose.value);
        }
      }
      i := i + 1;
    }
  }

  // ---------------------------------------------------------------------------
  // SendHandJointData
  // ---------------------------------------------------------------------------

  const Int32Max: int := 0x7FFF_FFFF
  const Int32Min: int := -0x8000_0000

  predicate IsInt32(n: int)
  {
    Int32Min <= n <= Int32Max
  }

  /** C#'s unchecked `n++` on an `int`: one more, wrapping from the largest value to the smallest. */
  function Int32Increment(n: int): (r: int)
    requires IsInt32(n)
    ensures IsInt32(r)
    ensures (r - n - 1) % 0x1_0000_0000 == 0
  {
    if n == Int32Max then Int32Min else n + 1
  }

  /** The payload of the prediction frame: the gesture name in double quotes. */
  function QuotedGesture(gesture: string): string
  {
    "\"" + gesture + "\""
  }

  /**
   * `SendHandJointData(gesture)`. `leftHand` is `None` when there is no hand subsystem; `now` is the
   * formatted timestamp and `serialise` stands for the JSON serialiser. When the left hand is
   * untracked (or there is no subsystem) nothing happens; otherwise the sample number goes up by one
   * and the joint dictionary (carrying the new number) and the quoted gesture are sent, both on the
   * same subject.
   */
  method SendHandJointData(sampleNumber: int, gesture: string, leftHand: Option<HandState>, now: string,
                           socket: Option<Connection.SocketState>, serialise: map<string, Value> -> string)
    returns (newSampleNumber: int, sent: seq<string>, data: Option<map<string, Value>>)
    requires IsInt32(sampleNumber)
    ensures leftHand.None? || !leftHand.value.isTracked ==>
      newSampleNumber == sampleNumber && sent == [] && data.None?
    ensures leftHand.Some? && leftHand.value.isTracked ==>
      newSampleNumber == Int32Increment(sampleNumber) && data.Some?
      && "sampleNumber" in data.value && data.value["sampleNumber"] == Int(newSampleNumber)
      && "gesture" in data.value && data.value["gesture"] == Text(gesture)
      && "timestamp" in data.value && data.value["timestamp"] == Text(now)
      && sent == Connection.SendHandData(socket, "hand.jointData", serialise(data.value))
               + Connection.SendHandData(socket, "hand.prediction", QuotedGesture(gesture))
      && (forall j, a :: 0 <= j <= LittleTip && 0 <= a < 3 ==>
            (JointKey(j, a) in data.value <==> j != Invalid && j in leftHand.value.poses))
      && (forall j, a :: 0 < j <= LittleTip && 0 <= a < 3 && j in leftHand.value.poses ==>
            JointKey(j, a) in data.value && data.value[JointKey(j, a)] == Coord(Axis(leftHand.value.poses[j], a)))
      && (forall k :: k in data.value ==>
            IsFixedKey(k) || exists j, a :: 0 < j <= LittleTip && 0 <= a < 3 && k == JointKey(j, a))
    ensures IsInt32(newSampleNumber)
    ensures |sent| == 2 <==> leftHand.Some? && leftHand.value.isTracked && socket == Some(Connection.Open)
    ensures sent == [] || |sent| == 2
  {
    if leftHand.None? || !leftHand.value.isTracked {
      return sampleNumber, [], None;
    }
    var hand := leftHand.value;
    newSampleNumber := Int32Increment(sampleNumber);
    var d := BuildJointData(now, gesture, newSampleNumber, hand);
    data := Some(d);
    sent := Connection.SendHandData(socket, "hand.jointData", serialise(d))
          + Connection.SendHandData(socket, "hand.prediction", QuotedGesture(gesture));
  }

  /** Both frames of one message go out on the same subject, so a reader cannot tell them apart by subject. */
  lemma BothFramesSameSubject(socket: Option<Connection.SocketState>, json: string, gesture: string)
    ensures Connection.SendHandData(socket, "hand.jointData", json)
         == Connection.SendHandData(socket, "hand.prediction", json)
    ensures forall f :: f in Connection.SendHandData(socket, "hand.prediction", QuotedGesture(gesture)) ==>
      Nats.ParsePub(Utf8.Encode(f)).Some? && Nats.ParsePub(Utf8.Encode(f)).value.subject == Connection.PoseSubject
  {
  }
}

=== FILE: hands.dfy ===
/** Hand states as the XR hand subsystem reports them: a tracked flag and the poses it could obtain. */
module Hands {
  import opened Wrappers
  import opened Geometry

  /** `XRHandJointID` values the clap detector and the joint-data sender use. */
  const Invalid: int := 0
  const Palm: int := 2
  const LittleTip: int := 26

  /**
   * The names of the `XRHandJointID` values, indexed by value, `Invalid` through `LittleTip`; value 1
   * is taken to print as `Wrist`.
   */
  const JointNames: seq<string> := [
    "Invalid", "Wrist", "Palm",
    "ThumbMetacarpal", "ThumbProximal", "ThumbDistal", "ThumbTip",
    "IndexMetacarpal", "IndexProximal", "IndexIntermediate", "IndexDistal", "IndexTip",
    "MiddleMetacarpal", "MiddleProximal", "MiddleIntermediate", "MiddleDistal", "MiddleTip",
    "RingMetacarpal", "RingProximal", "RingIntermediate", "RingDistal", "RingTip",
    "LittleMetacarpal", "LittleProximal", "LittleIntermediate", "LittleDistal", "LittleTip"]

  /**
   * One hand for one frame: whether it is tracked, and the position of every joint whose pose
   * `TryGetPose` obtains, keyed by joint value.
   */
  datatype HandState = HandState(isTracked: bool, poses: map<int, Vec3>)

  /** `hand.GetJoint(id).TryGetPose(out pose)`, keeping the position. */
  function TryGetPose(hand: HandState, id: int): Option<Vec3>
  {
    if id in hand.poses then Some(hand.poses[id]) else None
  }
}

=== FILE: labelling.dfy ===
/**
 * How the training scripts turn a folder listing into a labelled data set
 * (`get_image_paths_and_labels`). A listing is the sequence of names `os.listdir` returns;
 * a kept entry is reported by its name, which is the basename of the joined path.
 */
module ImageLabels {
  import opened Wrappers
  import opened Text

  /** The images the scripts train on: the lowercased name ends in `.png`, `.jpg` or `.jpeg`. */
  predicate HasImageExtension(name: string)
  {
    var lower := Lower(name);
    EndsWith(lower, ".png") || EndsWith(lower, ".jpg") || EndsWith(lower, ".jpeg")
  }

  /** `a` is `b` with some elements dropped and the rest kept in order. */
  predicate Subsequence<T(==)>(a: seq<T>, b: seq<T>)
    decreases |b|
  {
    |a| == 0 || (|b| > 0 && ((a[0] == b[0] && Subsequence(a[1..], b[1..])) || Subsequence(a, b[1..])))
  }

  lemma {:induction false} SubsequenceTransitive<T>(a: seq<T>, b: seq<T>, c: seq<T>)
    requires Subsequence(a, b) && Subsequence(b, c)
    ensures Subsequence(a, c)
    decreases |c|
  {
    if |a| > 0 {
      if Subsequence(b, c[1..]) {
        SubsequenceTransitive(a, b, c[1..]);
      } else if a[0] == b[0] && Subsequence(a[1..], b[1..]) {
        SubsequenceTransitive(a[1..], b[1..], c[1..]);
      } else {
        SubsequenceTransitive(a, b[1..], c[1..]);
      }
    }
  }

  lemma {:induction false} SubsequenceElements<T>(a: seq<T>, b: seq<T>)
    requires Subsequence(a, b)
    ensures forall x :: x in a ==> x in b
    decreases |b|
  {
    if |a| > 0 {
      if a[0] == b[0] && Subsequence(a[1..], b[1..]) {
        SubsequenceElements(a[1..], b[1..]);
        assert forall x :: x in a ==> x == a[0] || x in a[1..];
      } else {
        SubsequenceElements(a, b[1..]);
      }
    }
  }

  /** The list comprehension that keeps the image files of a listing, in listing order. */
  function ImageFiles(names: seq<string>): (files: seq<string>)
    ensures Subsequence(files, names)
    ensures forall f :: f in files <==> f in names && HasImageExtension(f)
    ensures forall f :: multiset(files)[f] == if HasImageExtension(f) then multiset(names)[f] else 0
  {
    if |names| == 0 then []
    else
      assert names == [names[0]] + names[1..];
      assert multiset(names) == multiset{names[0]} + multiset(names[1..]);
      if HasImageExtension(names[0]) then [names[0]] + ImageFiles(names[1..])
      else ImageFiles(names[1..])
  }

  /** The two parallel lists the function returns: `file_list` and `labels`. */
  datatype Labelled = Labelled(files: seq<string>, labels: seq<nat>)

  /**
   * The loop shared by the scripts: each file either gets a label and is appended to both
   * lists, or is skipped.
   */
  function Collect(paths: seq<string>, labelOf: string -> Option<nat>): (out: Labelled)
    ensures |out.files| == |out.labels|
    ensures Subsequence(out.files, paths)
    ensures forall i :: 0 <= i < |out.files| ==> labelOf(out.files[i]) == Some(out.labels[i])
    ensures forall p :: p in paths ==> (p in out.files <==> labelOf(p).Some?)
  {
    if |paths| == 0 then Labelled([], [])
    else
      var rest := Collect(paths[1..], labelOf);
      SubsequenceElements(rest.files, paths[1..]);
      var found := labelOf(paths[0]);
      if found.Some? then Labelled([paths[0]] + rest.files, [found.value] + rest.labels)
      else rest
  }

  /** A labelled file is kept as many times as it appears in the input; an unlabelled one never. */
  lemma {:induction false} CollectCounts(paths: seq<string>, labelOf: string -> Option<nat>, p: string)
    ensures multiset(Collect(paths, labelOf).files)[p] == if labelOf(p).Some? then multiset(paths)[p] else 0
  {
    if |paths| > 0 {
      CollectCounts(paths[1..], labelOf, p);
      var kept := Collect(paths[1..], labelOf).files;
      assert paths == [paths[0]] + paths[1..];
      assert multiset(paths) == multiset{paths[0]} + multiset(paths[1..]);
      assert multiset([paths[0]] + kept) == multiset{paths[0]} + multiset(kept);
    }
  }

  // ---------------------------------------------------------------------------------------
  // First match over an ordered key table (train.py, traintransfer1.py)

  /** A dictionary in insertion order, as Python iterates it. */
  type KeyTable = seq<(string, nat)>

  /** Entry `k` is the first whose key is a substring of `name`. */
  predicate FirstMatchAt(table: KeyTable, name: string, k: int)
  {
    0 <= k < |table| && Contains(name, table[k].0)
    && forall j :: 0 <= j < k ==> !Contains(name, table[j].0)
  }

  /** The position at which the `for key in table: if key in name: ... break` loop stops. */
  function FirstMatchIndex(table: KeyTable, name: string): (r: Option<nat>)
    ensures r.Some? ==> FirstMatchAt(table, name, r.value)
    ensures r.None? ==> forall k :: 0 <= k < |table| ==> !Contains(name, table[k].0)
  {
    if |table| == 0 then None
    else if Contains(name, table[0].0) then Some(0)
    else match FirstMatchIndex(table[1..], name)
      case Some(k) => Some(k + 1)
      case None => None
  }

  /** The label of the first key in table order that occurs in `name`, if any does. */
  function FirstMatch(table: KeyTable, name: string): (r: Option<nat>)
    ensures r.Some? <==> exists k :: 0 <= k < |table| && Contains(name, table[k].0)
    ensures r.Some? ==> exists k :: FirstMatchAt(table, name, k) && r.value == table[k].1
  {
    match FirstMatchIndex(table, name)
    case Some(k) => Some(table[k].1)
    case None => None
  }

  /** At most one entry is the first match, so a kept file gets exactly one label. */
  lemma FirstMatchAtUnique(table: KeyTable, name: string, i: int, j: int)
    requires FirstMatchAt(table, name, i) && FirstMatchAt(table, name, j)
    ensures i == j
  {
  }

  /** Whatever entry is the first match decides the label. */
  lemma FirstMatchOfAt(table: KeyTable, name: string, k: int)
    requires FirstMatchAt(table, name, k)
    ensures FirstMatch(table, name) == Some(table[k].1)
  {
    var i := FirstMatchIndex(table, name);
    assert i.Some?;
    FirstMatchAtUnique(table, name, i.value, k);
  }

  /** When no key occurs, nothing matches. */
  lemma FirstMatchNone(table: KeyTable, name: string)
    requires forall k :: 0 <= k < |table| ==> !Contains(name, table[k].0)
    ensures FirstMatch(table, name) == None
  {
  }

  /** `label_map` of train.py and traintransfer1.py, in insertion order. */
  const ClapLabelMap: KeyTable := [
    ("clap_1", 0), ("clap_2", 1), ("clap_3", 2), ("clap_4", 3),
    ("clap_5", 4), ("clap_6", 5), ("clap_7", 6), ("clap_8", 7)
  ]

  lemma ClapLabelMapBounded()
    ensures forall k :: 0 <= k < |ClapLabelMap| ==> ClapLabelMap[k].1 < 8
  {
  }

  /**
   * `get_image_paths_and_labels` of train.py and of traintransfer1.py, which have the same
   * body: image files in listing order, each labelled by the first `clap_<n>` key that is a
   * case-sensitive substring of its name, unmatched files dropped.
   */
  function ClapImageLabels(names: seq<string>): (out: Labelled)
    ensures |out.files| == |out.labels|
    ensures Subsequence(out.files, names)
    ensures forall i :: 0 <= i < |out.files| ==>
      HasImageExtension(out.files[i]) && out.labels[i] < 8
      && FirstMatch(ClapLabelMap, out.files[i]) == Some(out.labels[i])
    ensures forall n :: n in names ==>
      (n in out.files <==> HasImageExtension(n) && FirstMatch(ClapLabelMap, n).Some?)
  {
    var files := ImageFiles(names);
    var out := Collect(files, n => FirstMatch(ClapLabelMap, n));
    SubsequenceTransitive(out.files, files, names);
    SubsequenceElements(out.files, files);
    ClapLabelMapBounded();
    out
  }

  /** `clap_1` is tried first, so `clap_12` and `clap_10` are labelled 0 like `clap_1`. */
  lemma ClapOneWins(name: string)
    requires Contains(name, "clap_1")
    ensures FirstMatch(ClapLabelMap, name) == Some(0)
  {
    assert ClapLabelMap[0].0 == "clap_1";
    FirstMatchOfAt(ClapLabelMap, name, 0);
  }

  lemma ClapTwelveIsLabelZero()
    ensures ClapImageLabels(["clap_12.png"]) == Labelled(["clap_12.png"], [0])
  {
    assert "clap_12.png"[..6] == "clap_1";
    ClapOneWins("clap_12.png");
    assert HasImageExtension("clap_12.png") by {
      assert Lower("clap_12.png") == "clap_12.png";
    }
  }

  /**
   * The extension test ignores case but the key test does not: an upper-case name passes
   * the filter and is then dropped.
   */
  lemma UpperCaseNameDropped()
    ensures HasImageExtension("CLAP_1.PNG")
    ensures ClapImageLabels(["CLAP_1.PNG"]) == Labelled([], [])
  {
    assert Lower("CLAP_1.PNG") == "clap_1.png";
    forall k | 0 <= k < |ClapLabelMap|
      ensures !Contains("CLAP_1.PNG", ClapLabelMap[k].0)
    {
      assert ClapLabelMap[k].0[0] == 'c';
      NotContainsMissingChar("CLAP_1.PNG", ClapLabelMap[k].0, 'c');
    }
  }

  // ---------------------------------------------------------------------------------------
  // Sorted listing and precedence chain (traineffic.py)

  /** Python's `<=` on strings: lexicographic by code point. */
  predicate LexLe(a: string, b: string)
    decreases |a|
  {
    |a| == 0 || (|b| > 0 && (a[0] < b[0] || (a[0] == b[0] && LexLe(a[1..], b[1..]))))
  }

  lemma {:induction false} LexLeTotal(a: string, b: string)
    ensures LexLe(a, b) || LexLe(b, a)
    decreases |a|
  {
    if |a| > 0 && |b| > 0 && a[0] == b[0] {
      LexLeTotal(a[1..], b[1..]);
    }
  }

  lemma {:induction false} LexLeTransitive(a: string, b: string, c: string)
    requires LexLe(a, b) && LexLe(b, c)
    ensures LexLe(a, c)
    decreases |a|
  {
    if |a| > 0 && a[0] == b[0] && b[0] == c[0] {
      LexLeTransitive(a[1..], b[1..], c[1..]);
    }
  }

  predicate Sorted(s: seq<string>)
  {
    forall i, j :: 0 <= i < j < |s| ==> LexLe(s[i], s[j])
  }

  /** Insert `x` into sorted `s` before the first element it does not follow. */
  function Insert(x: string, s: seq<string>): (r: seq<string>)
    ensures multiset(r) == multiset(s) + multiset{x}
  {
    if |s| == 0 then [x]
    else if LexLe(x, s[0]) then [x] + s
    else
      assert s == [s[0]] + s[1..];
      [s[0]] + Insert(x, s[1..])
  }

  /** Inserting into a sorted list keeps it sorted. */
  lemma {:induction false} InsertSorted(x: string, s: seq<string>)
    requires Sorted(s)
    ensures Sorted(Insert(x, s))
  {
    if |s| > 0 {
      if LexLe(x, s[0]) {
        LexLeTransitiveFrom(x, s);
      } else {
        LexLeTotal(x, s[0]);
        var tail := Insert(x, s[1..]);
        InsertSorted(x, s[1..]);
        forall j | 0 <= j < |tail|
          ensures LexLe(s[0], tail[j])
        {
          assert tail[j] in multiset(tail);
          if tail[j] != x {
            assert tail[j] in s[1..];
          }
        }
      }
    }
  }

  /** Everything in sorted `s` follows `x` once `s[0]` does. */
  lemma LexLeTransitiveFrom(x: string, s: seq<string>)
    requires Sorted(s) && |s| > 0 && LexLe(x, s[0])
    ensures forall j :: 0 <= j < |s| ==> LexLe(x, s[j])
  {
    forall j | 0 < j < |s|
      ensures LexLe(x, s[j])
    {
      LexLeTransitive(x, s[0], s[j]);
    }
  }

  /** `sorted(...)`: the same names, in ascending order. */
  function SortNames(s: seq<string>): (r: seq<string>)
    ensures Sorted(r)
    ensures multiset(r) == multiset(s)
  {
    if |s| == 0 then []
    else
      assert s == [s[0]] + s[1..];
      InsertSorted(s[0], SortNames(s[1..]));
      Insert(s[0], SortNames(s[1..]))
  }

  /** Lists with the same multiset have the same members. */
  lemma SameMembers(a: seq<string>, b: seq<string>)
    requires multiset(a) == multiset(b)
    ensures forall x :: x in a <==> x in b
  {
    forall x
      ensures x in a <==> x in b
    {
      assert x in a <==> x in multiset(a);
      assert x in b <==> x in multiset(b);
    }
  }

  /** A subsequence of a sorted list is sorted. */
  lemma {:induction false} SortedSubsequence(a: seq<string>, b: seq<string>)
    requires Sorted(b) && Subsequence(a, b)
    ensures Sorted(a)
    decreases |b|
  {
    if |a| > 0 {
      if a[0] == b[0] && Subsequence(a[1..], b[1..]) {
        SortedSubsequence(a[1..], b[1..]);
        SubsequenceElements(a[1..], b[1..]);
        forall i, j | 0 <= i < j < |a|
          ensures LexLe(a[i], a[j])
        {
          if i == 0 {
            assert a[j] in b[1..];
          } else {
            assert a[i] == a[1..][i - 1] && a[j] == a[1..][j - 1];
          }
        }
      } else {
        SortedSubsequence(a, b[1..]);
      }
    }
  }

  /** `label_map` of traineffic.py. */
  const EfficLabelMap: map<string, nat> := map[
    "left" := 0, "up" := 1, "right" := 2, "down" := 3,
    "backwards" := 4, "forwards" := 5, "turn_left" := 6, "turn_right" := 7
  ]

  /** The `if`/`elif` chain over a lowercased name; `None` is its `continue`. */
  function EfficLabel(filename: string): (r: Option<nat>)
    ensures r.Some? ==> r.value < 8
  {
    if Contains(filename, "turn_left") then Some(EfficLabelMap["turn_left"])
    else if Contains(filename, "turn_right") then Some(EfficLabelMap["turn_right"])
    else if Contains(filename, "left") then Some(EfficLabelMap["left"])
    else if Contains(filename, "right") then Some(EfficLabelMap["right"])
    else if Contains(filename, "up") then Some(EfficLabelMap["up"])
    else if Contains(filename, "down") then Some(EfficLabelMap["down"])
    else if Contains(filename, "backwards") then Some(EfficLabelMap["backwards"])
    else if Contains(filename, "forwards") then Some(EfficLabelMap["forwards"])
    else None
  }

  /** The chain as a key table: the keys in the order the chain tests them, with their labels. */
  const EfficTable: KeyTable := [
    ("turn_left", 6), ("turn_right", 7), ("left", 0), ("right", 2),
    ("up", 1), ("down", 3), ("backwards", 4), ("forwards", 5)
  ]

  /** The table holds every key of `label_map` once, each with its `label_map` value. */
  lemma EfficTableIsLabelMap()
    ensures forall k :: 0 <= k < |EfficTable| ==>
      EfficTable[k].0 in EfficLabelMap && EfficTable[k].1 == EfficLabelMap[EfficTable[k].0]
    ensures EfficLabelMap.Keys == set k | 0 <= k < |EfficTable| :: EfficTable[k].0
    ensures forall i, j :: 0 <= i < j < |EfficTable| ==> EfficTable[i].0 != EfficTable[j].0
  {
    var keys := set k | 0 <= k < |EfficTable| :: EfficTable[k].0;
    assert keys == {"turn_left", "turn_right", "left", "right", "up", "down", "backwards", "forwards"} by {
      assert EfficTable[0].0 in keys && EfficTable[1].0 in keys && EfficTable[2].0 in keys;
      assert EfficTable[3].0 in keys && EfficTable[4].0 in keys && EfficTable[5].0 in keys;
      assert EfficTable[6].0 in keys && EfficTable[7].0 in keys;
    }
  }

  /**
   * The chain is a first match over `label_map` reordered so that each turn form comes
   * before the plain direction it contains.
   */
  lemma EfficLabelIsFirstMatch(filename: string)
    ensures EfficLabel(filename) == FirstMatch(EfficTable, filename)
  {
    var t := EfficTable;
    var f := filename;
    if Contains(f, "turn_left") || Contains(f, "turn_right") || Contains(f, "left") || Contains(f, "right") {
      EfficFirstFour(f);
    } else {
      EfficLastFour(f);
    }
  }

  lemma EfficFirstFour(f: string)
    requires Contains(f, "turn_left") || Contains(f, "turn_right") || Contains(f, "left") || Contains(f, "right")
    ensures EfficLabel(f) == FirstMatch(EfficTable, f)
  {
    var t := EfficTable;
    if Contains(f, "turn_left") {
      FirstMatchOfAt(t, f, 0);
    } else if Contains(f, "turn_right") {
      FirstMatchOfAt(t, f, 1);
    } else if Contains(f, "left") {
      FirstMatchOfAt(t, f, 2);
    } else {
      FirstMatchOfAt(t, f, 3);
    }
  }

  lemma EfficLastFour(f: string)
    requires !Contains(f, "turn_left") && !Contains(f, "turn_right") && !Contains(f, "left") && !Contains(f, "right")
    ensures EfficLabel(f) == FirstMatch(EfficTable, f)
  {
    var t := EfficTable;
    if Contains(f, "up") {
      FirstMatchOfAt(t, f, 4);
    } else if Contains(f, "down") {
      FirstMatchOfAt(t, f, 5);
    } else {
      EfficLastTwo(f);
    }
  }

  lemma EfficLastTwo(f: string)
    requires !Contains(f, "turn_left") && !Contains(f, "turn_right") && !Contains(f, "left") && !Contains(f, "right")
    requires !Contains(f, "up") && !Contains(f, "down")
    ensures EfficLabel(f) == FirstMatch(EfficTable, f)
  {
    var t := EfficTable;
    if Contains(f, "backwards") {
      FirstMatchOfAt(t, f, 6);
    } else if Contains(f, "forwards") {
      FirstMatchOfAt(t, f, 7);
    } else {
      FirstMatchNone(t, f);
    }
  }

  /** The turn forms win over the plain directions they contain. */
  lemma TurnFormsWin(filename: string)
    ensures Contains(filename, "turn_left") ==> EfficLabel(filename) == Some(6)
    ensures !Contains(filename, "turn_left") && Contains(filename, "turn_right") ==>
      EfficLabel(filename) == Some(7)
  {
  }

  /** With no turn form, a name holding both `left` and `right` is a left. */
  lemma LeftBeforeRight(filename: string)
    requires Contains(filename, "left") && Contains(filename, "right")
    requires !Contains(filename, "turn_left") && !Contains(filename, "turn_right")
    ensures EfficLabel(filename) == Some(0)
  {
  }

  /** The label traineffic.py gives a file: the chain applied to its lowercased name. */
  function EfficLabelOf(name: string): Option<nat>
  {
    EfficLabel(Lower(name))
  }

  /** `get_image_paths_and_labels` of traineffic.py. */
  function EfficImageLabels(names: seq<string>): (out: Labelled)
    ensures |out.files| == |out.labels|
    ensures Subsequence(out.files, SortNames(ImageFiles(names)))
    ensures Sorted(out.files)
    ensures forall i :: 0 <= i < |out.files| ==>
      out.files[i] in names && HasImageExtension(out.files[i]) && out.labels[i] < 8
      && EfficLabel(Lower(out.files[i])) == Some(out.labels[i])
    ensures forall n :: n in names ==>
      (n in out.files <==> HasImageExtension(n) && EfficLabel(Lower(n)).Some?)
  {
    var files := ImageFiles(names);
    var sorted := SortNames(files);
    SameMembers(sorted, files);
    var out := Collect(sorted, EfficLabelOf);
    SortedSubsequence(out.files, sorted);
    SubsequenceElements(out.files, sorted);
    out
  }

  /** A name holding none of the keywords gets no label. */
  lemma NoKeywordNoLabel(filename: string)
    requires forall k :: 0 <= k < |EfficTable| ==> !Contains(filename, EfficTable[k].0)
    ensures EfficLabel(filename) == None
  {
    EfficLabelIsFirstMatch(filename);
  }

  /** A listing in which no image file gets a label yields empty lists. */
  lemma UnlabelledSkipped(names: seq<string>)
    requires forall n :: n in names ==> !HasImageExtension(n) || EfficLabel(Lower(n)).None?
    ensures EfficImageLabels(names) == Labelled([], [])
  {
  }

  /** `forward` without the `s` matches no keyword, so such a file is skipped. */
  lemma ForwardWithoutS(name: string)
    requires name == "forward.jpg"
    ensures HasImageExtension(name)
    ensures EfficLabel(Lower(name)) == None
    ensures EfficImageLabels([name]) == Labelled([], [])
  {
    ForwardIsImage(name);
    NoLabelWithoutLetters(name);
    UnlabelledSkipped([name]);
  }

  lemma ForwardIsImage(name: string)
    requires name == "forward.jpg"
    ensures Lower(name) == name && HasImageExtension(name)
  {
    LowerOfLower(name);
    assert name[|name| - 4..] == ".jpg";
  }

  /**
   * Every keyword holds one of `t`, `i`, `u`, `n`, `b`, `s`, so a name with none of those
   * letters gets no label.
   */
  lemma NoLabelWithoutLetters(filename: string)
    requires 't' !in filename && 'i' !in filename && 'u' !in filename
    requires 'n' !in filename && 'b' !in filename && 's' !in filename
    ensures EfficLabel(filename) == None
  {
    NotContainsMissingChar(filename, "turn_left", 't');
    NotContainsMissingChar(filename, "turn_right", 't');
    NotContainsMissingChar(filename, "left", 't');
    NotContainsMissingChar(filename, "right", 'i');
    NotContainsMissingChar(filename, "up", 'u');
    NotContainsMissingChar(filename, "down", 'n');
    NotContainsMissingChar(filename, "backwards", 'b');
    NotContainsMissingChar(filename, "forwards", 's');
    NoKeywordNoLabel(filename);
  }
}

=== FILE: nats.dfy ===
/**
 * The PUB message of the NATS client protocol, `PUB <subject> <#bytes>\r\n<payload>\r\n`,
 * built as text and sent as UTF-8, together with a reader for it that stands for the receiving server.
 */
module Nats {
  import opened Wrappers
  import opened Text
  import opened Utf8

  /** The text of a PUB message whose length field is `len`. */
  function PubFrame(subject: string, len: nat, payload: string): string
  {
    PubHeader(subject, len) + "\r\n" + payload + "\r\n"
  }

  /** The protocol line of a PUB message, without its line terminator. */
  function PubHeader(subject: string, len: nat): string
  {
    "PUB " + subject + " " + Decimal(len)
  }

  /** A subject token: non-empty printable ASCII without spaces. */
  predicate ValidSubject(s: string)
  {
    |s| > 0 && forall i :: 0 <= i < |s| ==> ' ' < s[i] <= '~'
  }

  /** What a reader recovers from the front of a byte stream. */
  datatype Pub = Pub(subject: string, payload: seq<byte>, rest: seq<byte>)

  // ---------------------------------------------------------------------------
  // Reading
  // ---------------------------------------------------------------------------

  /** The position of the first CR LF pair in `b`, if any. */
  function FindCrlf(b: seq<byte>): (r: Option<nat>)
    ensures r.Some? ==> r.value + 2 <= |b| && b[r.value] == CR && b[r.value + 1] == LF
    ensures r.Some? ==> forall j :: 0 <= j < r.value ==> !(b[j] == CR && b[j + 1] == LF)
    ensures r.None? ==> forall j :: 0 <= j < |b| - 1 ==> !(b[j] == CR && b[j + 1] == LF)
  {
    if |b| < 2 then None
    else if b[0] == CR && b[1] == LF then Some(0)
    else match FindCrlf(b[1..])
      case Some(k) => Some(k + 1)
      case None => None
  }

  /** The position of the first `c` in `s`, if any. */
  function FindChar(s: string, c: char): (r: Option<nat>)
    ensures r.Some? ==> r.value < |s| && s[r.value] == c
    ensures r.Some? ==> forall j :: 0 <= j < r.value ==> s[j] != c
    ensures r.None? ==> forall j :: 0 <= j < |s| ==> s[j] != c
  {
    if |s| == 0 then None
    else if s[0] == c then Some(0)
    else match FindChar(s[1..], c)
      case Some(k) => Some(k + 1)
      case None => None
  }

  /** Bytes below 0x80 read as the ASCII characters they encode. */
  function AsciiChars(b: seq<byte>): (s: string)
    requires forall i :: 0 <= i < |b| ==> b[i] < 0x80
    ensures |s| == |b|
    ensures forall i :: 0 <= i < |b| ==> s[i] as int == b[i] as int
  {
    seq(|b|, i requires 0 <= i < |b| => b[i] as int as char)
  }

  predicate AllDigits(s: string)
  {
    forall i :: 0 <= i < |s| ==> IsDigit(s[i])
  }

  /** Reads the protocol line `PUB <subject> <len>` (without terminator). */
  function ParseHeader(h: seq<byte>): Option<(string, nat)>
  {
    if exists i :: 0 <= i < |h| && h[i] >= 0x80 then None
    else
      var t := AsciiChars(h);
      if |t| < 4 || t[..4] != "PUB " then None
      else
        var rem := t[4..];
        match FindChar(rem, ' ')
        case None => None
        case Some(k) =>
          var subject := rem[..k];
          var digits := rem[k + 1..];
          if |subject| == 0 || |digits| == 0 || !AllDigits(digits) then None
          else Some((subject, DecimalValue(digits)))
  }

  /** Reads the protocol line of the first message: subject, length field and where the payload starts. */
  function ParsePubHeader(wire: seq<byte>): (r: Option<(string, nat, nat)>)
    ensures r.Some? ==> r.value.2 <= |wire|
  {
    match FindCrlf(wire)
    case None => None
    case Some(i) =>
      match ParseHeader(wire[..i])
      case None => None
      case Some(sl) => Some((sl.0, sl.1, i + 2))
  }

  /**
   * Reads one PUB message from the front of `wire`: the protocol line up to the first CR LF, then
   * exactly as many payload bytes as the length field says, then a CR LF.
   */
  function ParsePub(wire: seq<byte>): (r: Option<Pub>)
    ensures r.Some? ==> |r.value.payload| + |r.value.rest| + 2 <= |wire|
    ensures r.Some? ==> wire[|wire| - |r.value.rest|..] == r.value.rest
  {
    match ParsePubHeader(wire)
    case None => None
    case Some(h) =>
      var (subject, len, start) := h;
      var body := wire[start..];
      if |body| < len + 2 || body[len] != CR || body[len + 1] != LF then None
      else Some(Pub(subject, body[..len], body[len + 2..]))
  }

  // ---------------------------------------------------------------------------
  // Round trip
  // ---------------------------------------------------------------------------

  /** A header built from a valid subject holds no CR and only ASCII characters. */
  lemma HeaderChars(subject: string, len: nat)
    requires ValidSubject(subject)
    ensures IsAscii(PubHeader(subject, len))
    ensures forall i :: 0 <= i < |PubHeader(subject, len)| ==> PubHeader(subject, len)[i] != '\r'
  {
    var h := PubHeader(subject, len);
    var d := Decimal(len);
    assert h == "PUB " + subject + " " + d;
    forall i | 0 <= i < |h| ensures h[i] as int < 0x80 && h[i] != '\r' {
      if i < 4 {
      } else if i < 4 + |subject| {
        assert h[i] == subject[i - 4];
      } else if i == 4 + |subject| {
      } else {
        assert h[i] == d[i - 5 - |subject|];
      }
    }
  }

  /** The first CR LF of `h + CR LF + t` is the one right after `h` when `h` has no CR. */
  lemma {:induction false} FindCrlfAfter(h: seq<byte>, t: seq<byte>)
    requires CR !in h
    ensures FindCrlf(h + [CR, LF] + t) == Some(|h|)
  {
    var w := h + [CR, LF] + t;
    assert w[|h|] == CR && w[|h| + 1] == LF;
    match FindCrlf(w)
    case None =>
      assert false;
    case Some(k) =>
      if k < |h| {
        assert false;
      }
  }

  /** ASCII text encodes to bytes below 0x80 that read back as the same text. */
  lemma AsciiRoundTrip(s: string)
    requires IsAscii(s)
    ensures forall i :: 0 <= i < |Encode(s)| ==> Encode(s)[i] < 0x80
    ensures AsciiChars(Encode(s)) == s
  {
    EncodeAscii(s);
  }

  /** The first space after a valid subject is the separator written after it. */
  lemma FindSeparator(subject: string, d: string)
    requires ValidSubject(subject)
    ensures FindChar(subject + " " + d, ' ') == Some(|subject|)
  {
    var rem := subject + " " + d;
    assert rem[|subject|] == ' ';
    assert forall j :: 0 <= j < |subject| ==> rem[j] == subject[j];
    match FindChar(rem, ' ')
    case None =>
      assert false;
    case Some(v) =>
      if v < |subject| {
        assert false;
      }
  }

  /** Reading a header built from a valid subject gives back the subject and the length. */
  lemma ParseHeaderRoundTrip(subject: string, len: nat)
    requires ValidSubject(subject)
    ensures ParseHeader(Encode(PubHeader(subject, len))) == Some((subject, len))
  {
    var s := PubHeader(subject, len);
    var d := Decimal(len);
    HeaderChars(subject, len);
    AsciiRoundTrip(s);
    assert s[..4] == "PUB ";
    var rem := s[4..];
    assert rem == subject + " " + d;
    FindSeparator(subject, d);
    assert rem[..|subject|] == subject;
    assert rem[|subject| + 1..] == d;
    DecimalRoundTrip(len);
  }

  /** The message's bytes split into protocol line, CR LF, payload, CR LF. */
  lemma EncodeFrame(subject: string, len: nat, payload: string)
    ensures Encode(PubFrame(subject, len, payload))
         == Encode(PubHeader(subject, len)) + [CR, LF] + Encode(payload) + [CR, LF]
  {
    var h := PubHeader(subject, len);
    EncodeAppend(h, "\r\n");
    EncodeAppend(h + "\r\n", payload);
    EncodeAppend(h + "\r\n" + payload, "\r\n");
    assert Encode("\r\n") == [CR, LF];
  }

  /** The reader recovers subject, length field and payload start of any message with a valid subject. */
  lemma ParsePubHeaderRoundTrip(subject: string, len: nat, payload: string, rest: seq<byte>)
    requires ValidSubject(subject)
    ensures ParsePubHeader(Encode(PubFrame(subject, len, payload)) + rest)
         == Some((subject, len, |Encode(PubHeader(subject, len))| + 2))
  {
    var h := Encode(PubHeader(subject, len));
    var t := Encode(payload) + [CR, LF] + rest;
    EncodeFrame(subject, len, payload);
    var w := Encode(PubFrame(subject, len, payload)) + rest;
    assert w == h + [CR, LF] + t;
    HeaderChars(subject, len);
    EncodeNoCR(PubHeader(subject, len));
    FindCrlfAfter(h, t);
    assert w[..|h|] == h;
    ParseHeaderRoundTrip(subject, len);
  }

  /** Once the protocol line is read, the payload is the next `len` bytes when CR LF follows them. */
  lemma ParsePubAfterHeader(wire: seq<byte>, subject: string, len: nat, start: nat)
    requires ParsePubHeader(wire) == Some((subject, len, start))
    requires start + len + 2 <= |wire| && wire[start + len] == CR && wire[start + len + 1] == LF
    ensures ParsePub(wire) == Some(Pub(subject, wire[start..start + len], wire[start + len + 2..]))
  {
    var body := wire[start..];
    assert body[len] == CR && body[len + 1] == LF;
    assert body[..len] == wire[start..start + len];
    assert body[len + 2..] == wire[start + len + 2..];
  }

  /** A stream laid out as protocol line, CR LF, payload, CR LF reads back as that payload. */
  lemma ParsePubOfPieces(h: seq<byte>, p: seq<byte>, rest: seq<byte>, subject: string)
    requires ParsePubHeader(h + [CR, LF] + p + [CR, LF] + rest) == Some((subject, |p|, |h| + 2))
    ensures ParsePub(h + [CR, LF] + p + [CR, LF] + rest) == Some(Pub(subject, p, rest))
  {
    var w := h + [CR, LF] + p + [CR, LF] + rest;
    assert w[|h| + 2..|h| + 2 + |p|] == p;
    assert w[|h| + 2 + |p|] == CR && w[|h| + 3 + |p|] == LF;
    assert w[|h| + 4 + |p|..] == rest;
    ParsePubAfterHeader(w, subject, |p|, |h| + 2);
  }

  /**
   * A message whose length field is the payload's byte count reads back as exactly its subject and
   * payload bytes, whatever the payload holds (CR LF included) and whatever follows it on the stream.
   */
  lemma ParsePubRoundTrip(subject: string, payload: string, rest: seq<byte>)
    requires ValidSubject(subject)
    ensures ParsePub(Encode(PubFrame(subject, ByteCount(payload), payload)) + rest)
         == Some(Pub(subject, Encode(payload), rest))
  {
    var len := ByteCount(payload);
    var h := Encode(PubHeader(subject, len));
    var p := Encode(payload);
    assert len == |p|;
    EncodeFrame(subject, len, payload);
    assert Encode(PubFrame(subject, len, payload)) + rest == h + [CR, LF] + p + [CR, LF] + rest;
    ParsePubHeaderRoundTrip(subject, len, payload, rest);
    ParsePubOfPieces(h, p, rest, subject);
  }

  /** Two messages with the same subject and payload are the same text only if their length fields agree. */
  lemma PubFrameLengthInjective(subject: string, len1: nat, len2: nat, payload: string)
    requires ValidSubject(subject)
    requires PubFrame(subject, len1, payload) == PubFrame(subject, len2, payload)
    ensures len1 == len2
  {
    ParsePubHeaderRoundTrip(subject, len1, payload, []);
    ParsePubHeaderRoundTrip(subject, len2, payload, []);
  }
}

=== FILE: pixels.dfy ===
/**
 * The pixel-buffer half of the classification pipeline: the vertical flip of `ResizeAndFlipTexture`
 * on a row-major RGB buffer, and `ProcessImageToTensor`'s channel-last layout with per-channel
 * ImageNet normalisation.
 */
module Pixels {

  /** One pixel, as Unity's `Color` without alpha; channels are reals. */
  datatype Rgb = Rgb(r: real, g: real, b: real)

  /** The value a freshly allocated `Color[]` holds. */
  const Clear: Rgb := Rgb(0.0, 0.0, 0.0)

  /** Pixel `i` of a buffer, or `Clear` outside it. */
  function PixelOr(p: seq<Rgb>, i: int): (c: Rgb)
    ensures 0 <= i < |p| ==> c == p[i]
  {
    if 0 <= i < |p| then p[i] else Clear
  }

  /** Rows `0 .. y - 1` of `p` are in place as rows `h - 1 .. h - y` of `f`. */
  ghost predicate RowsFlipped(f: seq<Rgb>, p: seq<Rgb>, y: int, w: nat, h: nat)
  {
    forall yy, x :: 0 <= yy < y && 0 <= x < w ==> PixelOr(f, Idx(h - 1 - yy, x, w)) == PixelOr(p, Idx(yy, x, w))
  }

  /** The flat index of pixel (x, y) in a row-major buffer `w` pixels wide. */
  function Idx(y: int, x: int, w: int): int
  {
    y * w + x
  }

  // ---------------------------------------------------------------------------
  // Index arithmetic
  // ---------------------------------------------------------------------------

  lemma MulMono(a: int, b: int, w: int)
    requires a <= b && w >= 0
    ensures a * w <= b * w
  {
    assert b * w - a * w == (b - a) * w;
  }

  /** A pixel inside a `w` by `h` image has a flat index inside its buffer. */
  lemma IdxInBounds(y: int, x: int, w: int, h: int)
    requires 0 <= y < h && 0 <= x < w
    ensures 0 <= Idx(y, x, w) < w * h
  {
    RowEndInBounds(y, w, h);
  }

  /** The row after row `y` starts inside or right at the end of the buffer. */
  lemma RowEndInBounds(y: int, w: int, h: int)
    requires 0 <= y < h && 0 <= w
    ensures 0 <= y * w && y * w + w <= w * h
  {
    MulMono(0, y, w);
    MulMono(y + 1, h, w);
    assert (y + 1) * w == y * w + w;
    assert h * w == w * h;
  }

  /** Pixels of different rows never share an index, and within a row the column decides. */
  lemma IdxRowsApart(y1: int, x1: int, y2: int, x2: int, w: int)
    requires y1 < y2 && 0 <= x1 < w && 0 <= x2 < w
    ensures Idx(y1, x1, w) < Idx(y2, x2, w)
  {
    MulMono(y1 + 1, y2, w);
    assert (y1 + 1) * w == y1 * w + w;
  }

  /** Every index of a `w` by `h` buffer is the index of exactly the pixel (i % w, i / w). */
  lemma IdxCover(i: int, w: nat, h: nat)
    requires 0 <= i < w * h
    ensures w > 0 && 0 <= i / w < h && 0 <= i % w < w && Idx(i / w, i % w, w) == i
  {
    if w == 0 {
      assert false;
    }
    var q := i / w;
    if q >= h {
      MulMono(h, q, w);
      assert false;
    }
  }

  // ---------------------------------------------------------------------------
  // Vertical flip
  // ---------------------------------------------------------------------------

  /** The reference definition of the flip: the rows of the buffer in reverse order. */
  function Flipped(p: seq<Rgb>, w: nat, h: nat): (f: seq<Rgb>)
    requires |p| == w * h
    ensures |f| == w * h
    decreases h
  {
    if h == 0 then []
    else
      assert |p| == w * (h - 1) + w;
      Flipped(p[w..], w, h - 1) + p[..w]
  }

  /** One step of the reference definition, with the sizes of its two parts. */
  lemma FlippedUnfold(p: seq<Rgb>, w: nat, h: nat)
    requires |p| == w * h && h > 0
    ensures w <= |p| && |p[w..]| == w * (h - 1)
    ensures |Flipped(p[w..], w, h - 1)| == w * (h - 1)
    ensures Flipped(p, w, h) == Flipped(p[w..], w, h - 1) + p[..w]
  {
    assert |p| == w * (h - 1) + w;
  }

  lemma IdxNextRow(y: int, x: int, w: int)
    ensures Idx(y + 1, x, w) == Idx(y, x, w) + w
  {
    assert (y + 1) * w == y * w + w;
  }

  lemma IdxLastRow(x: int, w: nat, h: nat)
    requires h > 0
    ensures Idx(h - 1, x, w) == w * (h - 1) + x && Idx(0, x, w) == x
  {
    assert (h - 1) * w == w * (h - 1);
  }

  /** Output row `h - 1 - y` of the flip is input row `y`. */
  lemma {:induction false} FlippedPixel(p: seq<Rgb>, w: nat, h: nat, y: int, x: int)
    requires |p| == w * h && 0 <= y < h && 0 <= x < w
    ensures 0 <= Idx(h - 1 - y, x, w) < w * h && 0 <= Idx(y, x, w) < |p|
    ensures Flipped(p, w, h)[Idx(h - 1 - y, x, w)] == p[Idx(y, x, w)]
    decreases h
  {
    IdxInBounds(y, x, w, h);
    IdxInBounds(h - 1 - y, x, w, h);
    FlippedUnfold(p, w, h);
    var tail := p[w..];
    var f := Flipped(tail, w, h - 1);
    if y == 0 {
      IdxLastRow(x, w, h);
    } else {
      FlippedPixel(tail, w, h - 1, y - 1, x);
      IdxInBounds(h - 1 - y, x, w, h - 1);
      IdxNextRow(y - 1, x, w);
      assert f[Idx(h - 1 - y, x, w)] == tail[Idx(y - 1, x, w)];
    }
  }

  /** A buffer that agrees with `p` on every flipped pixel position is the flip of `p`. */
  lemma FlippedCharacterised(p: seq<Rgb>, f: seq<Rgb>, w: nat, h: nat)
    requires |p| == w * h && |f| == w * h
    requires RowsFlipped(f, p, h, w, h)
    ensures f == Flipped(p, w, h)
  {
    var g := Flipped(p, w, h);
    forall i | 0 <= i < |f| ensures f[i] == g[i] {
      IdxCover(i, w, h);
      var y := h - 1 - i / w;
      var x := i % w;
      assert Idx(h - 1 - y, x, w) == i;
      FlippedPixel(p, w, h, y, x);
      assert PixelOr(f, Idx(h - 1 - y, x, w)) == PixelOr(p, Idx(y, x, w));
    }
  }

  /** The flip of a concatenation of whole rows is the concatenation of the flips, swapped. */
  lemma {:induction false} FlippedAppend(a: seq<Rgb>, b: seq<Rgb>, w: nat, ha: nat, hb: nat)
    requires |a| == w * ha && |b| == w * hb
    ensures |a + b| == w * (ha + hb)
    ensures Flipped(a + b, w, ha + hb) == Flipped(b, w, hb) + Flipped(a, w, ha)
    decreases ha
  {
    assert w * (ha + hb) == w * ha + w * hb;
    if ha == 0 {
      assert a + b == b;
    } else {
      assert |a| == w * (ha - 1) + w;
      assert (a + b)[w..] == a[w..] + b;
      assert (a + b)[..w] == a[..w];
      FlippedAppend(a[w..], b, w, ha - 1, hb);
      assert ha - 1 + hb == ha + hb - 1;
    }
  }

  /** A single row is its own flip. */
  lemma FlippedOneRow(r: seq<Rgb>, w: nat)
    requires |r| == w
    ensures |r| == w * 1 && Flipped(r, w, 1) == r
  {
    FlippedUnfold(r, w, 1);
    assert r[w..] == [];
    assert r[..w] == r;
  }

  /** Flipping twice gives the buffer back. */
  lemma {:induction false} FlippedInvolution(p: seq<Rgb>, w: nat, h: nat)
    requires |p| == w * h
    ensures Flipped(Flipped(p, w, h), w, h) == p
    decreases h
  {
    if h > 0 {
      FlippedUnfold(p, w, h);
      var top := p[..w];
      var rest := p[w..];
      var f := Flipped(rest, w, h - 1);
      assert Flipped(p, w, h) == f + top;
      FlippedOneRow(top, w);
      FlippedAppend(f, top, w, h - 1, 1);
      assert Flipped(f + top, w, h) == Flipped(top, w, 1) + Flipped(f, w, h - 1);
      FlippedInvolution(rest, w, h - 1);
      assert Flipped(f, w, h - 1) == rest;
      assert top + rest == p;
    }
  }

  /** The flip keeps every pixel: the output is a permutation of the input. */
  lemma {:induction false} FlippedPermutes(p: seq<Rgb>, w: nat, h: nat)
    requires |p| == w * h
    ensures multiset(Flipped(p, w, h)) == multiset(p)
    decreases h
  {
    if h > 0 {
      FlippedUnfold(p, w, h);
      var top := p[..w];
      var rest := p[w..];
      assert Flipped(p, w, h) == Flipped(rest, w, h - 1) + top;
      FlippedPermutes(rest, w, h - 1);
      assert multiset(Flipped(rest, w, h - 1)) == multiset(rest);
      assert p == top + rest;
      assert multiset(p) == multiset(top) + multiset(rest);
    }
  }

  /** `Array.Copy(src, srcIndex, dst, dstIndex, len)` on value buffers. */
  function CopyRange(src: seq<Rgb>, srcIndex: nat, dst: seq<Rgb>, dstIndex: nat, len: nat): (r: seq<Rgb>)
    requires srcIndex + len <= |src| && dstIndex + len <= |dst|
    ensures |r| == |dst|
    ensures forall k :: dstIndex <= k < dstIndex + len ==> r[k] == src[srcIndex + (k - dstIndex)]
    ensures forall k :: 0 <= k < |dst| && !(dstIndex <= k < dstIndex + len) ==> r[k] == dst[k]
  {
    dst[..dstIndex] + src[srcIndex..srcIndex + len] + dst[dstIndex + len..]
  }

  /** Copying row `y` to row `h - 1 - y` keeps the rows already copied and adds this one. */
  lemma FlipRowsStep(pixels: seq<Rgb>, before: seq<Rgb>, after: seq<Rgb>, y: int, w: nat, h: nat)
    requires |pixels| == w * h && |before| == w * h && 0 <= y < h
    requires 0 <= y * w && y * w + w <= w * h
    requires 0 <= (h - 1 - y) * w && (h - 1 - y) * w + w <= w * h
    requires after == CopyRange(pixels, y * w, before, (h - 1 - y) * w, w)
    requires RowsFlipped(before, pixels, y, w, h)
    ensures RowsFlipped(after, pixels, y + 1, w, h)
  {
    forall yy, x | 0 <= yy <= y && 0 <= x < w
      ensures PixelOr(after, Idx(h - 1 - yy, x, w)) == PixelOr(pixels, Idx(yy, x, w))
    {
      FlipRowsStepAt(pixels, before, after, y, yy, x, w, h);
    }
  }

  lemma FlipRowsStepAt(pixels: seq<Rgb>, before: seq<Rgb>, after: seq<Rgb>, y: int, yy: int, x: int, w: nat, h: nat)
    requires |pixels| == w * h && |before| == w * h && 0 <= yy <= y < h && 0 <= x < w
    requires 0 <= y * w && y * w + w <= w * h
    requires 0 <= (h - 1 - y) * w && (h - 1 - y) * w + w <= w * h
    requires after == CopyRange(pixels, y * w, before, (h - 1 - y) * w, w)
    requires yy < y ==> PixelOr(before, Idx(h - 1 - yy, x, w)) == PixelOr(pixels, Idx(yy, x, w))
    ensures PixelOr(after, Idx(h - 1 - yy, x, w)) == PixelOr(pixels, Idx(yy, x, w))
  {
    var dst := (h - 1 - y) * w;
    var i := Idx(h - 1 - yy, x, w);
    IdxInBounds(h - 1 - yy, x, w, h);
    IdxInBounds(yy, x, w, h);
    if yy < y {
      IdxRowsApart(h - 1 - y, w - 1, h - 1 - yy, x, w);
      assert !(dst <= i < dst + w);
      assert after[i] == before[i];
    } else {
      assert i == dst + x;
      assert after[i] == pixels[y * w + x];
    }
  }

  /**
   * The flip loop of `ResizeAndFlipTexture` on the already resized buffer: row `y` is copied to
   * row `height - 1 - y` of a fresh buffer.
   */
  method FlipRows(pixels: seq<Rgb>, width: nat, height: nat) returns (flipped: seq<Rgb>)
    requires |pixels| == width * height
    ensures flipped == Flipped(pixels, width, height)
  {
    flipped := seq(|pixels|, _ => Clear);
    var rowLength := width;
    var y := 0;
    while y < height
      invariant 0 <= y <= height
      invariant |flipped| == |pixels|
      invariant RowsFlipped(flipped, pixels, y, width, height)
    {
      RowEndInBounds(y, width, height);
      RowEndInBounds(height - 1 - y, width, height);
      var before := flipped;
      flipped := CopyRange(pixels, y * rowLength, flipped, (height - 1 - y) * rowLength, rowLength);
      FlipRowsStep(pixels, before, flipped, y, width, height);
      y := y + 1;
    }
    FlippedCharacterised(pixels, flipped, width, height);
  }

  // ---------------------------------------------------------------------------
  // Normalisation and layout
  // ---------------------------------------------------------------------------

  /** Channel `c` of a pixel: 0 red, 1 green, 2 blue. */
  function Channel(p: Rgb, c: int): real
    requires 0 <= c < 3
  {
    if c == 0 then p.r else if c == 1 then p.g else p.b
  }

  /** The ImageNet per-channel means and standard deviations. */
  function Mean(c: int): real
    requires 0 <= c < 3
  {
    if c == 0 then 0.485 else if c == 1 then 0.456 else 0.406
  }

  function Std(c: int): (s: real)
    requires 0 <= c < 3
    ensures s > 0.0
  {
    if c == 0 then 0.229 else if c == 1 then 0.224 else 0.225
  }

  /** `(value - mean) / std` for channel `c`. */
  function Normalized(p: Rgb, c: int): real
    requires 0 <= c < 3
  {
    (Channel(p, c) - Mean(c)) / Std(c)
  }

  /** Normalisation is invertible: scaling back by the deviation and adding the mean recovers the channel. */
  lemma NormalizedInvertible(p: Rgb, c: int)
    requires 0 <= c < 3
    ensures Normalized(p, c) * Std(c) + Mean(c) == Channel(p, c)
  {
  }

  /** The three tensor entries of pixel `p` are the ones whose index divides down to `p`. */
  lemma ThirdOf(k: int, p: int)
    requires 3 * p <= k < 3 * p + 3
    ensures k / 3 == p && k % 3 == k - 3 * p
  {
  }

  /** The flat position of channel `c` of pixel (x, y) in the channel-last tensor. */
  function TensorIdx(y: int, x: int, c: int, w: int): int
  {
    Idx(y, x, w) * 3 + c
  }

  /**
   * The nested loops of `ProcessImageToTensor` over a `width` by `height` buffer: element
   * `(y * width + x) * 3 + c` is channel `c` of pixel (x, y), normalised.
   */
  method NormalizeToTensor(pixels: seq<Rgb>, width: nat, height: nat) returns (tensor: seq<real>)
    requires |pixels| == width * height
    ensures |tensor| == width * height * 3
    ensures forall k :: 0 <= k < |tensor| ==> tensor[k] == Normalized(pixels[k / 3], k % 3)
  {
    var n := width * height;
    var data := new real[n * 3];
    var y := 0;
    while y < height
      invariant 0 <= y <= height
      invariant 0 <= y * width <= n
      invariant forall k :: 0 <= k < 3 * (y * width) ==> data[k] == Normalized(pixels[k / 3], k % 3)
    {
      RowEndInBounds(y, width, height);
      var rowStart := y * width;
      var x := 0;
      while x < width
        invariant 0 <= x <= width
        invariant forall k :: 0 <= k < 3 * (rowStart + x) ==> data[k] == Normalized(pixels[k / 3], k % 3)
      {
        var pixelIndex := rowStart + x;
        var pixel := pixels[pixelIndex];
        data[pixelIndex * 3 + 0] := (pixel.r - 0.485) / 0.229;
        data[pixelIndex * 3 + 1] := (pixel.g - 0.456) / 0.224;
        data[pixelIndex * 3 + 2] := (pixel.b - 0.406) / 0.225;
        forall k | 3 * pixelIndex <= k < 3 * pixelIndex + 3
          ensures data[k] == Normalized(pixels[k / 3], k % 3)
        {
          ThirdOf(k, pixelIndex);
        }
        x := x + 1;
      }
      assert rowStart + width == (y + 1) * width;
      y := y + 1;
    }
    tensor := data[..];
  }

  /** Channel `c` of pixel (x, y) sits at `TensorIdx(y, x, c, w)` in a tensor laid out as above. */
  lemma TensorIdxDecodes(y: int, x: int, c: int, w: nat, h: nat)
    requires 0 <= y < h && 0 <= x < w && 0 <= c < 3
    ensures 0 <= TensorIdx(y, x, c, w) < w * h * 3
    ensures TensorIdx(y, x, c, w) / 3 == Idx(y, x, w) && TensorIdx(y, x, c, w) % 3 == c
  {
    IdxInBounds(y, x, w, h);
  }

  /** The side of the square input the classifier takes. */
  const Side: nat := 224

  /**
   * `ProcessImageToTensor` from the resized `224 x 224` buffer on (the resize itself is an engine
   * call outside this model): flip, then normalise, giving the `1 x 224 x 224 x 3` tensor's data.
   * Element (y, x, c) is channel c of source pixel (x, 223 - y), normalised.
   */
  method ProcessImageToTensor(resized: seq<Rgb>) returns (tensor: seq<real>)
    requires |resized| == Side * Side
    ensures |tensor| == Side * Side * 3
    ensures forall y, x, c :: 0 <= y < Side && 0 <= x < Side && 0 <= c < 3 ==>
      tensor[TensorIdx(y, x, c, Side)] == Normalized(resized[Idx(Side - 1 - y, x, Side)], c)
  {
    var flipped := FlipRows(resized, Side, Side);
    tensor := NormalizeToTensor(flipped, Side, Side);
    forall y, x, c | 0 <= y < Side && 0 <= x < Side && 0 <= c < 3
      ensures tensor[TensorIdx(y, x, c, Side)] == Normalized(resized[Idx(Side - 1 - y, x, Side)], c)
    {
      TensorIdxDecodes(y, x, c, Side, Side);
      FlippedPixel(resized, Side, Side, Side - 1 - y, x);
    }
  }

  /** A uniform image stays uniform under the flip. */
  lemma FlippedUniform(p: seq<Rgb>, w: nat, h: nat, q: Rgb)
    requires |p| == w * h
    requires forall i :: 0 <= i < |p| ==> p[i] == q
    ensures forall i :: 0 <= i < w * h ==> Flipped(p, w, h)[i] == q
  {
    var f := Flipped(p, w, h);
    FlippedPermutes(p, w, h);
    forall i | 0 <= i < w * h ensures f[i] == q {
      assert f[i] in multiset(f);
      assert f[i] in multiset(p);
      var j :| 0 <= j < |p| && p[j] == f[i];
    }
  }

  /** A uniform image gives a tensor that is constant per channel: every element is that channel's normalised value. */
  method UniformImageTensor(resized: seq<Rgb>, q: Rgb) returns (tensor: seq<real>)
    requires |resized| == Side * Side
    requires forall i :: 0 <= i < |resized| ==> resized[i] == q
    ensures |tensor| == Side * Side * 3
    ensures forall k :: 0 <= k < |tensor| ==> tensor[k] == Normalized(q, k % 3)
  {
    FlippedUniform(resized, Side, Side, q);
    var flipped := FlipRows(resized, Side, Side);
    tensor := NormalizeToTensor(flipped, Side, Side);
  }
}

=== FILE: pose_target.dfy ===
/**
 * The command-line sender of a target pose: read a pose from a configuration mapping, build the
 * pose message and frame it as a PUB on `subject.pose`, with the length counted in characters.
 */
module PoseTarget {
  import opened Wrappers
  import opened Utf8
  import opened Nats
  import opened Geometry
  import Connection

  /** The Python exceptions the script can raise on malformed input. */
  datatype PyError =
    | KeyError(key: string)   // a configuration key is missing
    | ValueError              // a list too short to unpack into the named variables
    | IndexError              // a target quaternion with fewer than four entries

  /** A JSON value with its object members in insertion order, as `json.dumps` writes them. */
  datatype Json = Num(n: real) | Str(s: string) | Obj(members: seq<(string, Json)>)

  /** The value of the first member named `key` of an object; `None` for a missing key or a non-object. */
  function Member(j: Json, key: string): Option<Json>
  {
    match j
    case Obj(ms) => Lookup(ms, key)
    case _ => None
  }

  function Lookup(ms: seq<(string, Json)>, key: string): Option<Json>
  {
    if |ms| == 0 then None
    else if ms[0].0 == key then Some(ms[0].1)
    else Lookup(ms[1..], key)
  }

  /** Lookup finds the value of the first member carrying the key. */
  lemma {:induction false} LookupFirst(ms: seq<(string, Json)>, k: nat, key: string)
    requires k < |ms| && ms[k].0 == key
    requires forall j :: 0 <= j < k ==> ms[j].0 != key
    ensures Lookup(ms, key) == Some(ms[k].1)
    decreases k
  {
    if k > 0 {
      LookupFirst(ms[1..], k - 1, key);
    }
  }

  /** The identity rotation `q0`, as `[x, y, z, w]`. */
  const Q0: seq<real> := [0.0, 0.0, 0.0, 1.0]

  /** The fixed channel identifier every message carries. */
  const Channel: string := "B11772DB-2A8B-4647-A9D3-3B6CD439350C"

  /**
   * The message dict `send_nats_message` serialises: position members in the order z, y, x,
   * orientation members in the order x, w, y, z, then the channel. The quaternion is `quat_target`
   * when one is given and `q0` otherwise; indexing a shorter list raises.
   */
  function PoseMessage(x: real, y: real, z: real, quatTarget: Option<seq<real>>): (r: Result<Json, PyError>)
    ensures r.Failure? <==> quatTarget.Some? && |quatTarget.value| < 4
    ensures r.Failure? ==> r.error == IndexError
  {
    var q := if quatTarget.Some? then quatTarget.value else Q0;
    if |q| < 4 then Failure(IndexError)
    else Success(Obj([
      ("position", PositionObj(x, y, z)),
      ("orientation", OrientationObj(q)),
      ("channel", Str(Channel))]))
  }

  function PositionObj(x: real, y: real, z: real): Json
  {
    Obj([("z", Num(z)), ("y", Num(y)), ("x", Num(x))])
  }

  function OrientationObj(q: seq<real>): Json
    requires |q| >= 4
  {
    Obj([("x", Num(q[0])), ("w", Num(q[3])), ("y", Num(q[1])), ("z", Num(q[2]))])
  }

  lemma PositionRead(x: real, y: real, z: real)
    ensures NumMember(PositionObj(x, y, z), "x") == Some(x)
    ensures NumMember(PositionObj(x, y, z), "y") == Some(y)
    ensures NumMember(PositionObj(x, y, z), "z") == Some(z)
  {
    var ps := PositionObj(x, y, z).members;
    LookupFirst(ps, 2, "x");
    LookupFirst(ps, 1, "y");
    LookupFirst(ps, 0, "z");
  }

  lemma OrientationRead(q: seq<real>)
    requires |q| >= 4
    ensures NumMember(OrientationObj(q), "x") == Some(q[0])
    ensures NumMember(OrientationObj(q), "y") == Some(q[1])
    ensures NumMember(OrientationObj(q), "z") == Some(q[2])
    ensures NumMember(OrientationObj(q), "w") == Some(q[3])
  {
    var os := OrientationObj(q).members;
    LookupFirst(os, 0, "x");
    LookupFirst(os, 2, "y");
    LookupFirst(os, 3, "z");
    LookupFirst(os, 1, "w");
  }

  /** The number held by member `key` of object `j`, if there is one. */
  function NumMember(j: Json, key: string): Option<real>
  {
    match Member(j, key)
    case Some(Num(n)) => Some(n)
    case _ => None
  }

  /** The position and orientation (as `[x, y, z, w]`) a message carries, read back member by member. */
  function ReadPose(j: Json): Option<(Vec3, seq<real>)>
  {
    if Member(j, "position").None? || Member(j, "orientation").None? then None
    else
      var p := Member(j, "position").value;
      var o := Member(j, "orientation").value;
      if NumMember(p, "x").None? || NumMember(p, "y").None? || NumMember(p, "z").None?
        || NumMember(o, "x").None? || NumMember(o, "y").None? || NumMember(o, "z").None?
        || NumMember(o, "w").None?
      then None
      else Some((Vec3(NumMember(p, "x").value, NumMember(p, "y").value, NumMember(p, "z").value),
                 [NumMember(o, "x").value, NumMember(o, "y").value,
                  NumMember(o, "z").value, NumMember(o, "w").value]))
  }

  /**
   * The message carries the arguments unchanged: position x, y, z from the arguments, and
   * orientation x, y, z, w from entries 0, 1, 2, 3 of the quaternion; without a target quaternion
   * the orientation is the identity.
   */
  lemma PoseMessageFields(x: real, y: real, z: real, quatTarget: Option<seq<real>>)
    requires quatTarget.None? || |quatTarget.value| >= 4
    ensures PoseMessage(x, y, z, quatTarget).Success?
    ensures quatTarget.Some? ==>
      ReadPose(PoseMessage(x, y, z, quatTarget).value) == Some((Vec3(x, y, z), quatTarget.value[..4]))
    ensures quatTarget.None? ==>
      ReadPose(PoseMessage(x, y, z, quatTarget).value) == Some((Vec3(x, y, z), [0.0, 0.0, 0.0, 1.0]))
  {
    var q := if quatTarget.Some? then quatTarget.value else Q0;
    var m := PoseMessage(x, y, z, quatTarget).value;
    LookupFirst(m.members, 0, "position");
    LookupFirst(m.members, 1, "orientation");
    PositionRead(x, y, z);
    OrientationRead(q);
    assert [q[0], q[1], q[2], q[3]] == q[..4];
  }

  /** The frame built around `msg_json`: its length field is `len(msg_json)`, a character count. */
  function NatsFrame(msgJson: string): string
  {
    PubFrame(Connection.PoseSubject, |msgJson|, msgJson)
  }

  /**
   * Counting characters gives the same frame as counting UTF-8 bytes, as the Unity sender does,
   * exactly when the message is ASCII; for ASCII text the frame reads back as the message.
   */
  lemma NatsFrameMatchesUnity(msgJson: string)
    ensures NatsFrame(msgJson) == Connection.HandDataFrame(msgJson) <==> IsAscii(msgJson)
    ensures IsAscii(msgJson) ==>
      ParsePub(Encode(NatsFrame(msgJson))) == Some(Pub(Connection.PoseSubject, Encode(msgJson), []))
  {
    ByteCountIsLengthIffAscii(msgJson);
    if NatsFrame(msgJson) == Connection.HandDataFrame(msgJson) {
      PubFrameLengthInjective(Connection.PoseSubject, |msgJson|, ByteCount(msgJson), msgJson);
    }
    if IsAscii(msgJson) {
      ParsePubRoundTrip(Connection.PoseSubject, msgJson, []);
      assert Encode(NatsFrame(msgJson)) + [] == Encode(NatsFrame(msgJson));
    }
  }

  /**
   * `send_nats_message(x, y, z, quat_target)` up to the socket: the frame it sends, given the
   * serialiser `dumps` (standing for `json.dumps`, whose default output is ASCII).
   */
  function SendNatsMessage(x: real, y: real, z: real, quatTarget: Option<seq<real>>, dumps: Json -> string)
    : (r: Result<string, PyError>)
    ensures r.Failure? <==> PoseMessage(x, y, z, quatTarget).Failure?
    ensures r.Success? && IsAscii(dumps(PoseMessage(x, y, z, quatTarget).value)) ==>
      ParsePub(Encode(r.value))
        == Some(Pub(Connection.PoseSubject, Encode(dumps(PoseMessage(x, y, z, quatTarget).value)), []))
  {
    match PoseMessage(x, y, z, quatTarget)
    case Failure(e) => Failure(e)
    case Success(m) =>
      NatsFrameMatchesUnity(dumps(m));
      Success(NatsFrame(dumps(m)))
  }

  /** The values `load_map_config` returns: `x, y, z, qx, qy, qz, qw`. */
  datatype MapConfig = MapConfig(position: Vec3, quat: seq<real>)

  /**
   * `load_map_config` on the parsed YAML mapping: the first three `position` entries and the first
   * four `quat` entries, in order, extra entries ignored; a missing key or a shorter list raises.
   */
  function LoadMapConfig(cfg: map<string, seq<real>>): (r: Result<MapConfig, PyError>)
    ensures r.Success? <==>
      "position" in cfg && |cfg["position"]| >= 3 && "quat" in cfg && |cfg["quat"]| >= 4
    ensures r.Success? ==>
      r.value.position == Vec3(cfg["position"][0], cfg["position"][1], cfg["position"][2])
      && r.value.quat == cfg["quat"][..4]
    ensures "position" !in cfg ==> r == Failure(KeyError("position"))
    ensures "position" in cfg && |cfg["position"]| < 3 ==> r == Failure(ValueError)
    ensures "position" in cfg && |cfg["position"]| >= 3 && "quat" !in cfg ==> r == Failure(KeyError("quat"))
    ensures "position" in cfg && |cfg["position"]| >= 3 && "quat" in cfg && |cfg["quat"]| < 4 ==>
      r == Failure(ValueError)
  {
    if "position" !in cfg then Failure(KeyError("position"))
    else
      var p := cfg["position"][..if |cfg["position"]| < 3 then |cfg["position"]| else 3];
      if |p| != 3 then Failure(ValueError)
      else if "quat" !in cfg then Failure(KeyError("quat"))
      else
        var q := cfg["quat"][..if |cfg["quat"]| < 4 then |cfg["quat"]| else 4];
        if |q| != 4 then Failure(ValueError)
        else Success(MapConfig(Vec3(p[0], p[1], p[2]), [q[0], q[1], q[2], q[3]]))
  }

  /**
   * The script as a whole: load the configuration, then send the pose with the loaded quaternion as
   * target. Any loaded configuration yields a message whose fields are the configuration's first
   * three position entries and first four quaternion entries.
   */
  function RunScript(cfg: map<string, seq<real>>, dumps: Json -> string): (r: Result<string, PyError>)
    ensures r.Success? <==> LoadMapConfig(cfg).Success?
    ensures r.Failure? ==> r == Failure(LoadMapConfig(cfg).error)
    ensures r.Success? ==>
      var c := LoadMapConfig(cfg).value;
      var m := PoseMessage(c.position.x, c.position.y, c.position.z, Some(c.quat));
      && m.Success?
      && ReadPose(m.value)
           == Some((Vec3(cfg["position"][0], cfg["position"][1], cfg["position"][2]), cfg["quat"][..4]))
      && (IsAscii(dumps(m.value)) ==>
            ParsePub(Encode(r.value)) == Some(Pub(Connection.PoseSubject, Encode(dumps(m.value)), [])))
  {
    match LoadMapConfig(cfg)
    case Failure(e) => Failure(e)
    case Success(c) =>
      RunScriptSendsConfiguredPose(cfg);
      SendNatsMessage(c.position.x, c.position.y, c.position.z, Some(c.quat), dumps)
  }

  /** The pose the script sends is read from the configuration entry by entry. */
  lemma RunScriptSendsConfiguredPose(cfg: map<string, seq<real>>)
    requires LoadMapConfig(cfg).Success?
    ensures var c := LoadMapConfig(cfg).value;
      ReadPose(PoseMessage(c.position.x, c.position.y, c.position.z, Some(c.quat)).value)
        == Some((Vec3(cfg["position"][0], cfg["position"][1], cfg["position"][2]), cfg["quat"][..4]))
  {
    var c := LoadMapConfig(cfg).value;
    PoseMessageFields(c.position.x, c.position.y, c.position.z, Some(c.quat));
    assert c.quat[..4] == c.quat;
  }
}

=== FILE: text.dfy ===
/** String helpers that mirror the few Python and C# string operations the hand tracker and the training scripts use. */
module Text {

  /** `needle` occurs at position `i` of `hay`. */
  predicate OccursAt(hay: string, needle: string, i: nat)
  {
    i + |needle| <= |hay| && hay[i..i + |needle|] == needle
  }

  /** `prefix` is a prefix of `s`. */
  predicate StartsWith(s: string, prefix: string)
  {
    |prefix| <= |s| && s[..|prefix|] == prefix
  }

  /** Python's `needle in hay` for strings: `needle` is a contiguous substring of `hay`. */
  predicate Contains(hay: string, needle: string)
    decreases |hay|
  {
    StartsWith(hay, needle) || (|hay| > 0 && Contains(hay[1..], needle))
  }

  /** `Contains` holds exactly when the needle occurs at some position. */
  lemma {:induction false} ContainsIffOccurs(hay: string, needle: string)
    ensures Contains(hay, needle) <==> exists i: nat :: OccursAt(hay, needle, i)
    decreases |hay|
  {
    if StartsWith(hay, needle) {
      assert OccursAt(hay, needle, 0);
    } else if |hay| > 0 {
      ContainsIffOccurs(hay[1..], needle);
      if Contains(hay[1..], needle) {
        var i: nat :| OccursAt(hay[1..], needle, i);
        assert hay[1..][i..i + |needle|] == hay[i + 1..i + 1 + |needle|];
        assert OccursAt(hay, needle, i + 1);
      }
      if i: nat :| OccursAt(hay, needle, i) {
        assert i != 0;
        assert hay[1..][i - 1..i - 1 + |needle|] == hay[i..i + |needle|];
        assert OccursAt(hay[1..], needle, i - 1);
      }
    } else {
      assert forall i: nat :: !OccursAt(hay, needle, i);
    }
  }

  /** A needle holding a character the haystack lacks is not contained in it. */
  lemma NotContainsMissingChar(hay: string, needle: string, c: char)
    requires c in needle && c !in hay
    ensures !Contains(hay, needle)
  {
    ContainsIffOccurs(hay, needle);
  }

  /** Python's `hay.endswith(suffix)`. */
  predicate EndsWith(hay: string, suffix: string)
  {
    |suffix| <= |hay| && hay[|hay| - |suffix|..] == suffix
  }

  /** One character of Python's `str.lower()`, restricted to the ASCII letters. */
  function LowerChar(c: char): (r: char)
    ensures 'A' <= c <= 'Z' ==> 'a' <= r <= 'z' && r as int - c as int == 32
    ensures !('A' <= c <= 'Z') ==> r == c
  {
    if 'A' <= c <= 'Z' then (c as int + 32) as char else c
  }

  /** Python's `s.lower()`, restricted to the ASCII letters. */
  function Lower(s: string): (r: string)
    ensures |r| == |s|
    ensures forall i :: 0 <= i < |s| ==> r[i] == LowerChar(s[i])
  {
    seq(|s|, i requires 0 <= i < |s| => LowerChar(s[i]))
  }

  /** Text without upper-case ASCII letters is its own lower case. */
  lemma LowerOfLower(s: string)
    requires forall i :: 0 <= i < |s| ==> !('A' <= s[i] <= 'Z')
    ensures Lower(s) == s
  {
  }

  // ---------------------------------------------------------------------------
  // Decimal numerals (C# interpolation of an int, Python `str` of an int)
  // ---------------------------------------------------------------------------

  predicate IsDigit(c: char)
  {
    '0' <= c <= '9'
  }

  function DigitChar(d: nat): (c: char)
    requires d < 10
    ensures IsDigit(c) && c as int - '0' as int == d
  {
    ('0' as int + d) as char
  }

  /** The decimal numeral of `n`, most significant digit first, no leading zeros. */
  function Decimal(n: nat): (s: string)
    ensures |s| > 0
    ensures forall i :: 0 <= i < |s| ==> IsDigit(s[i])
    ensures n > 0 ==> s[0] != '0'
    decreases n
  {
    if n < 10 then [DigitChar(n)] else Decimal(n / 10) + [DigitChar(n % 10)]
  }

  function DigitValue(c: char): (d: nat)
    requires IsDigit(c)
    ensures d < 10
  {
    c as int - '0' as int
  }

  /** The value of a string of decimal digits. */
  function DecimalValue(s: string): nat
    requires forall i :: 0 <= i < |s| ==> IsDigit(s[i])
  {
    if |s| == 0 then 0
    else DecimalValue(s[..|s| - 1]) * 10 + DigitValue(s[|s| - 1])
  }

  /** Reading a numeral back gives the number it was written from. */
  lemma {:induction false} DecimalRoundTrip(n: nat)
    ensures DecimalValue(Decimal(n)) == n
    decreases n
  {
    var s := Decimal(n);
    if n >= 10 {
      DecimalRoundTrip(n / 10);
      assert s[..|s| - 1] == Decimal(n / 10);
    }
  }
}

=== FILE: utf8.dfy ===
/**
 * UTF-8 encoding of strings, as done by .NET's `Encoding.UTF8` and by the WebSocket text frames
 * both programs send. A Dafny `char` is a Unicode scalar value, so every string here is well formed.
 */
module Utf8 {

  newtype byte = b: int | 0 <= b < 256

  const CR: byte := 13
  const LF: byte := 10

  /** The bytes of one scalar value: one byte below U+0080, two below U+0800, three below U+10000, else four. */
  function EncodeChar(c: char): (bs: seq<byte>)
    ensures 1 <= |bs| <= 4
    ensures (c as int < 0x80) <==> |bs| == 1
    ensures |bs| == 1 ==> bs[0] as int == c as int
    ensures |bs| > 1 ==> forall k :: 0 <= k < |bs| ==> bs[k] >= 0x80
  {
    var cp := c as int;
    if cp < 0x80 then
      [cp as byte]
    else if cp < 0x800 then
      [(0xC0 + cp / 64) as byte, (0x80 + cp % 64) as byte]
    else if cp < 0x10000 then
      [(0xE0 + cp / 4096) as byte, (0x80 + (cp / 64) % 64) as byte, (0x80 + cp % 64) as byte]
    else
      [(0xF0 + cp / 262144) as byte, (0x80 + (cp / 4096) % 64) as byte,
       (0x80 + (cp / 64) % 64) as byte, (0x80 + cp % 64) as byte]
  }

  /** `Encoding.UTF8.GetBytes(s)`. */
  function Encode(s: string): seq<byte>
  {
    if |s| == 0 then [] else EncodeChar(s[0]) + Encode(s[1..])
  }

  /** `Encoding.UTF8.GetByteCount(s)`: one to four bytes per character. */
  function ByteCount(s: string): (n: nat)
    ensures |s| <= n <= 4 * |s|
    ensures n == |Encode(s)|
  {
    if |s| == 0 then 0 else |EncodeChar(s[0])| + ByteCount(s[1..])
  }

  /** Every character is below U+0080 (the output of Python's `json.dumps` with its default `ensure_ascii`). */
  predicate IsAscii(s: string)
  {
    forall i :: 0 <= i < |s| ==> s[i] as int < 0x80
  }

  /** Encoding distributes over concatenation. */
  lemma {:induction false} EncodeAppend(a: string, b: string)
    ensures Encode(a + b) == Encode(a) + Encode(b)
    decreases |a|
  {
    if |a| > 0 {
      assert (a + b)[0] == a[0];
      assert (a + b)[1..] == a[1..] + b;
      EncodeAppend(a[1..], b);
    } else {
      assert a + b == b;
    }
  }

  /** An ASCII string encodes to one byte per character, with the same values. */
  lemma {:induction false} EncodeAscii(s: string)
    requires IsAscii(s)
    ensures |Encode(s)| == |s|
    ensures forall i :: 0 <= i < |s| ==> Encode(s)[i] as int == s[i] as int
    decreases |s|
  {
    if |s| > 0 {
      EncodeAscii(s[1..]);
    }
  }

  /** The byte count is the character count exactly when the string is ASCII. */
  lemma {:induction false} ByteCountIsLengthIffAscii(s: string)
    ensures ByteCount(s) == |s| <==> IsAscii(s)
    decreases |s|
  {
    if |s| > 0 {
      ByteCountIsLengthIffAscii(s[1..]);
      assert IsAscii(s) <==> s[0] as int < 0x80 && IsAscii(s[1..]) by {
        assert forall i :: 0 <= i < |s[1..]| ==> s[1..][i] == s[i + 1];
      }
    }
  }

  /** A CR or LF byte in an encoding comes from a CR or LF character: multi-byte sequences never contain them. */
  lemma {:induction false} EncodeNoCR(s: string)
    requires forall i :: 0 <= i < |s| ==> s[i] != '\r'
    ensures CR !in Encode(s)
    decreases |s|
  {
    if |s| > 0 {
      EncodeNoCR(s[1..]);
    }
  }
}

=== FILE: wrappers.dfy ===
/** Failure-compatible result types shared by the whole model. */
module Wrappers {

  /** A value that may be absent: a pose that could not be obtained, a key that did not match. */
  datatype Option<+T> = None | Some(value: T)

  /** The outcome of an operation that can raise in the source (a Python KeyError, IndexError, ...). */
  datatype Result<+R, +E> = Success(value: R) | Failure(error: E)
}
